=== FILE: README.md ===
# json-parser-combinator in Dafny

A model of the parser-combinator JSON reader in `src/parserCombinator.ts` and
`src/jsonParser.ts`, with the token strings of `src/symbols.ts` as constants
and the value types of `src/types.ts` as a datatype.

A parser takes text and gives back a `Parsed` record. That record holds a value
or `null`, plus the unparsed rest of the text. The model writes this as
`Parsed<T> = Parsed(parsed: Option<T>, unparsed: string) | Throw`. `Throw`
stands for an exception escaping the parser. In the source this happens when
`parseObject` destructures the `null` of a failed pair. Once there, it escapes
every caller.

The modules follow the source:

- `ParserCombinator` holds the generic combinators: `parseFailed`,
  `modifyParsed`, `matchStringParser`, `eitherStringParser`,
  `firstSuccessfulParser`, `parseRecursively` and `delimitedParser`.
  - Curried builders are modelled applied: `MatchStringParser(lookfor, value)`
    is `matchStringParser(lookfor)(value)`.
  - JavaScript truthiness (`!!result.parsed`, `find(r => r.parsed)`) is a
    parameter `truthy`.
- `Text` holds `startsWith`, `slice` and `trim`.
- `JsonHelpers` holds `numericLiteralToNumber`, `findPairEnd` and
  `removeInsignificantWhitespace`.
- `JsonParser` holds `jsonTypes` (`parseBool`, `parseNull`, `parseString`,
  `parseNumber`, `parseList`, `parseValue`, `parseKeyValuePair`,
  `parseObject`) and `JsonParserCombinator.parse`.
  - The two `while` loops become the recursive functions `ListItems` and
    `ObjectPairs`.
- `JsonProperties` relates the operations to independent descriptions:
  - the string a quoted literal encloses;
  - the usual decimal value of a numeral;
  - `parseValue` as a `firstSuccessfulParser`;
  - the last-assignment-wins object;
  - the bracket `findPairEnd` matches.
- `JsonExamples` works a selection of the inputs of `src/tests.ts`, and the
  inputs of the source's own delimited and recursion helpers.

`IsTruthy` gives the JavaScript truthiness of a parsed value:

- `0` and `""` are falsy.
- `JsonBool.False` and `JsonNull.isNull` are truthy, because they are
  non-empty enum strings.
- Lists and objects are truthy.

So `parseValue` passes over a `0` or an empty string, while it keeps `false`
and `null`.

Quirks of the code that the model keeps:

- `parseString` skips its first letter without checking it. The `if
  (!hasOpen) parseFailed(value)` at jsonParser.ts:114 drops its result, so it
  has no effect (`UnquotedString`).
- In `parseObject`'s loop, a pair that fails to parse throws: the loop
  destructures its `null` (`ObjectPairs`, `KeyWithoutColon`,
  `KeyWithoutValueThrows`, `ParseBareKeyThrows`).
- `parseObject` reports a remainder of the stripped text, not of its input, so
  only `|unparsed| <= |input|` holds for it.
- `parseList` keeps a failed element as `null` and goes on after a comma.
- A key must be a non-empty string, since `!key.parsed` rejects `""`.
- `parseRecursively` reports an empty remainder, so the text where it stops is
  lost (`RecursiveDropsRest`).

## Model

| member | source | states |
|---|---|---|
| ParserCombinator.ParseFailed | src/parserCombinator.ts:8-11 | no value, and the whole input is left unparsed |
| ParserCombinator.ModifyParsed | src/parserCombinator.ts:13-19 | the value, if any, is mapped; presence, remainder and an exception are kept |
| ParserCombinator.ModifyParsedIdentity | src/parserCombinator.ts:13-19 | mapping the identity changes nothing |
| ParserCombinator.ModifyParsedCompose | src/parserCombinator.ts:13-19 | two successive maps equal one map by the composition |
| ParserCombinator.MatchStringParser | src/parserCombinator.ts:21-29 | succeeds exactly when the text starts with `lookfor`; then the value is `lookfor` and value followed by rest is the input; otherwise the input is left whole |
| ParserCombinator.AnyThrowConcat | src/parserCombinator.ts:50 | an exception among two lists of outcomes is an exception in one of them, and conversely |
| ParserCombinator.Find | src/parserCombinator.ts:50-51 | a found outcome is one of the outcomes and truthy; finding none means no outcome is truthy and the input is left |
| ParserCombinator.FindIsFirst | src/parserCombinator.ts:50 | what `find` returns is the first truthy outcome |
| ParserCombinator.FirstSuccessful | src/parserCombinator.ts:49-51 | throws exactly when some alternative throws; a value is a truthy outcome; no value means none was truthy and the input is left |
| ParserCombinator.FirstSuccessfulIsFirst | src/parserCombinator.ts:49-51 | without an exception, the result is the first truthy outcome, or `parseFailed(value)` when there is none |
| ParserCombinator.FirstSuccessfulWithin | src/parserCombinator.ts:49-51 | the chosen outcome leaves no more text than the alternatives do |
| ParserCombinator.FirstSuccessfulOfTwo | src/parserCombinator.ts:46-52 | for two alternatives: an exception if either throws, else the first truthy of the two, else a failure |
| ParserCombinator.RunAll | src/parserCombinator.ts:50 | the i-th outcome is the i-th parser run on the same input |
| ParserCombinator.FirstSuccessfulParser | src/parserCombinator.ts:46-52 | throws exactly when a parser throws; it has a value exactly when some parser's value is truthy, and that value is the first parser's whose value is truthy |
| ParserCombinator.FirstSuccessfulParserOfOutcomes | src/parserCombinator.ts:46-52 | the parser combinator equals the selection step applied to the parsers' outcomes |
| ParserCombinator.MatchAll | src/parserCombinator.ts:33-39 | the i-th outcome is the i-th option matched against the input |
| ParserCombinator.FindFirstOption | src/parserCombinator.ts:31-44 | the first truthy match is the first listed non-empty option the input starts with, and some option matches exactly when one does |
| ParserCombinator.EitherStringParser | src/parserCombinator.ts:31-44 | the first listed non-empty option the text starts with wins, even when a later one is longer; the value is that option and the rest follows it; with no match the input is left whole |
| ParserCombinator.ParseRecursively | src/parserCombinator.ts:54-68 | keeps `data` as a prefix; reports an empty remainder; throws exactly when the reference sequence of elements does |
| ParserCombinator.ParseRecursivelyIsElements | src/parserCombinator.ts:54-68 | the value is `data` followed by the values of successive applications up to the first null |
| ParserCombinator.DelimitedChunk | src/parserCombinator.ts:80-86 | without the delimiter at the front, or with an empty delimiter, a failure leaving the chunk; otherwise the element parser on the trimmed text after the delimiter |
| ParserCombinator.DelimitedChunkShortens | src/parserCombinator.ts:80-86 | a chunk step that yields a value consumes text, so the repetition ends |
| ParserCombinator.ChunkParser | src/parserCombinator.ts:80-86 | the chunk step as a parser shortens its input whenever it succeeds |
| ParserCombinator.DelimitedParser | src/parserCombinator.ts:70-90 | an exception of the first element escapes; a falsy first element fails and leaves the input; after a truthy one it throws exactly when the chunk elements do, and otherwise the value starts with the first element and the remainder is empty |
| ParserCombinator.DelimitedParserElements | src/parserCombinator.ts:70-90 | the value is the first element followed by every element the chunk step finds, in order |
| JsonTypes.IsTruthy | src/types.ts:1-8 | only the number 0 and the empty string are falsy; `false` and null are non-empty enum strings and so truthy |
| Text.FirstLetterMismatch | src/jsonParser.ts:170 | a text whose first letter differs from the prefix's first letter does not start with it |
| Text.Slice | src/jsonParser.ts:175 | JavaScript `slice` with clamped bounds: the letters from `from` to `to` when both are in range, the rest from `from` when `to` is past the end, and the empty text when `to` is not after `from` or `from` is past the end |
| Text.Trim | src/jsonParser.ts:92 | the result is the text with its leading and trailing white space removed, and it has none left at either end |
| Text.TrimIdempotent | src/jsonParser.ts:92 | trimming twice is trimming once |
| Text.TrimUnchanged | src/jsonParser.ts:92 | a text with no white space at either end is its own trim |
| Text.TrimDropsLeading | src/jsonParser.ts:92 | a leading white space letter makes no difference to the trim |
| Text.TrimKeepsFirst | src/jsonParser.ts:92 | trimming keeps a first letter that is not white space |
| JsonHelpers.DigitValue | src/jsonParser.ts:42-51 | `indexOf` in the digit list: -1 exactly for a non-digit; for a digit, the position in `0123456789` holding it |
| JsonHelpers.WeightedShift | src/jsonParser.ts:50-51 | a digit one place further left weighs ten times as much |
| JsonHelpers.Reverse | src/jsonParser.ts:54 | the reversal has the same length and letter i is letter `n-1-i` of the input |
| JsonHelpers.FirstIndex | src/jsonParser.ts:43 | the position of the first dot, or the length when there is none |
| JsonHelpers.DecimalValueLeading | src/jsonParser.ts:54 | the leading digit of a numeral weighs ten to the power of the numeral's length minus one |
| JsonHelpers.IntegerPartValue | src/jsonParser.ts:54 | folding the reversed integer digits with weights `10 ** i` gives the usual base-10 value |
| JsonHelpers.FractionPartValue | src/jsonParser.ts:55-57 | folding the decimal digits with weights `10 ** -(i + 1)` gives their usual value divided by ten to the power of their count |
| JsonHelpers.NumericLiteralToNumber | src/jsonParser.ts:41-60 | a literal's number is the usual base-10 value of its integer part plus that of its decimal part divided by ten to the power of the decimal part's length |
| JsonHelpers.WholeLiteralValue | src/jsonParser.ts:41-60 | a literal without a dot reads as the usual whole number |
| JsonHelpers.DottedLiteralSplit | src/jsonParser.ts:43 | `split('.')` cuts `int.frac` into its two parts, whatever follows a second dot |
| JsonHelpers.DottedLiteralValue | src/jsonParser.ts:41-60 | `int.frac` reads as the usual decimal value; what follows a second dot is ignored, and an empty part counts as zero |
| JsonHelpers.PairEndFrom | src/jsonParser.ts:71-78 | the loop from letter i stops at the first balanced prefix past i, or at the end |
| JsonHelpers.FindPairEnd | src/jsonParser.ts:63-81 | the least k of at least 1 whose k-prefix has as many start as end characters, or the length when there is none |
| JsonHelpers.DeleteBreaks | src/jsonParser.ts:92 | no newline remains, only spaces and newlines are removed, and a first letter that is neither is kept; which spaces go is stated by `DeleteBreaksHalvesRuns` |
| JsonHelpers.DeleteBreaksUnchanged | src/jsonParser.ts:92 | text with no newline and no double space is left as it is |
| JsonHelpers.DeleteBreaksSpaces | src/jsonParser.ts:92 | a run of n spaces not followed by a space loses its pairs, leaving n mod 2 spaces |
| JsonHelpers.DeleteBreaksHalvesRuns | src/jsonParser.ts:92 | deleting newlines and double spaces left to right is the reference reading: newlines dropped, each run of spaces kept modulo 2 |
| JsonHelpers.RemoveInsignificantWhitespace | src/jsonParser.ts:91-93 | the non-blank letters of the trimmed text are kept in order and no newline remains; it is empty exactly when the trimmed text is; it keeps the trimmed text's first letter; a trimmed text with no newline and no double space comes back unchanged; in general the result is the trimmed text without newlines and with each run of spaces kept modulo 2 |
| JsonParser.ParseBool | src/jsonParser.ts:96-103 | `true` exactly when the text starts with `true`, `false` exactly when it starts with `false`, each followed by the rest after the keyword; otherwise the input is left |
| JsonParser.ParseNull | src/jsonParser.ts:105-110 | null exactly when the text starts with `null`, with the rest after it; otherwise the input is left |
| JsonParser.ClosingQuoteFrom | src/jsonParser.ts:117-126 | the first unescaped quote after the first letter, or the invalid index when there is none |
| JsonParser.ParseString | src/jsonParser.ts:112-136 | fails, leaving the input, exactly when there is no unescaped closing quote past the first letter; otherwise the value is the text between the first letter and the first such quote, and the rest follows that quote |
| JsonParser.ParseStringValue | src/jsonParser.ts:200 | the string alternative succeeds exactly when `parseString` does, with the same text and rest |
| JsonParser.LiteralEndFrom | src/jsonParser.ts:144-152 | the end of the run of digits and dots from i |
| JsonParser.ParseNumber | src/jsonParser.ts:138-164 | fails exactly on an empty text or one not starting with a digit or dot; otherwise it reads the whole leading run of digits and dots as a number and leaves what follows |
| JsonParser.Interior | src/jsonParser.ts:175 | for an end from 2 to the length, the letters from 1 to before `end - 1`; an end of 1 gives the empty text; an end of 0 (JavaScript's -1) drops the first and last letters; always shorter than a non-empty literal |
| JsonParser.ParseList | src/jsonParser.ts:166-191 | without `[` a failure; with nothing between the brackets (an unclosed `[` included) the empty list and the text after the matching bracket; otherwise, unless an element throws, a list whose elements are failures or truthy values, empty exactly when the text between the brackets is, and whose rest follows the matching bracket |
| JsonParser.ParseListThrows | src/jsonParser.ts:166-191 | a list throws exactly when it starts with `[`, has text between its brackets, and the loop over that text throws |
| JsonParser.ParseListItems | src/jsonParser.ts:174-190 | with a non-empty interior, the list throws exactly when its loop over the interior does; otherwise its elements are that loop's elements and its rest follows the matching bracket |
| JsonParser.ListItems | src/jsonParser.ts:177-185 | the loop adds at least one element whenever it ends without an exception, and an exception in the current element escapes it |
| JsonParser.ListItemsKeepsFound | src/jsonParser.ts:177-185 | elements found earlier stay, in order, at the front |
| JsonParser.ListItemsFirst | src/jsonParser.ts:180-183 | the next element is whatever `parseValue` makes of the current text, and the loop stops there unless a comma follows |
| JsonParser.ListItemsEntries | src/jsonParser.ts:180-181 | every element added is a failure or a truthy value |
| JsonParser.ScalarAlternatives | src/jsonParser.ts:197-200 | bool, null, number and string never throw and never lengthen the text |
| JsonParser.CompositeAlternatives | src/jsonParser.ts:195-196 | the list and object alternatives throw exactly when one of the two parsers does |
| JsonParser.ParseValue | src/jsonParser.ts:193-204 | a value is truthy; a failure leaves the input; an exception comes exactly from the list or object alternative |
| JsonParser.ParseKeyValuePair | src/jsonParser.ts:206-220 | fails, leaving the input, exactly when there is no non-empty key directly followed by a colon; the pair's key is the parsed key and its value is a failure or a truthy value |
| JsonParser.ObjectPairs | src/jsonParser.ts:234-247 | an empty text ends the loop with the pairs so far; on any other text a pair that fails or throws makes the loop throw, and a loop that does not throw adds at least one pair |
| JsonParser.ObjectPairsKeepsFound | src/jsonParser.ts:237-247 | pairs found earlier stay, in order, at the front |
| JsonParser.ObjectPairsFirst | src/jsonParser.ts:237-243 | the first pair added is the one `parseKeyValuePair` reads from the trimmed text |
| JsonParser.ObjectPairsStops | src/jsonParser.ts:237-247 | a pair not followed by a comma is the last one added, and the loop reports the text after it |
| JsonParser.ObjectPairsEntries | src/jsonParser.ts:237-243 | every pair added holds a failure or a truthy value |
| JsonParser.BuildObject | src/jsonParser.ts:243 | the object's keys are exactly the keys of the pairs |
| JsonParser.BuildObjectEntries | src/jsonParser.ts:243 | every field is a failure or a truthy value |
| JsonParser.ParseObject | src/jsonParser.ts:222-253 | without `{` after stripping, a failure leaving the stripped text; otherwise it throws exactly when the pair loop does, an empty interior gives the empty object, and the rest follows the matching brace |
| JsonParser.ParseObjectFields | src/jsonParser.ts:223-252 | on a leading brace after stripping, the object throws exactly when its pair loop does; otherwise its fields are those the loop's pairs build, assigned in order, and its rest follows the matching brace |
| JsonParser.Parse | src/jsonParser.ts:256-266 | throws exactly when the object or value parser throws; otherwise the object if it is truthy, else the value's result |
| JsonProperties.ParseStringRoundTrip | src/jsonParser.ts:112-136 | any first letter, a text whose quotes are all escaped, a quote and any rest parse back to exactly that text and rest |
| JsonProperties.ParseNumberReadsRun | src/jsonParser.ts:138-164 | a run of digits and dots followed by anything else reads as that run's number, leaving what follows |
| JsonProperties.ParseValueIsFirstSuccessful | src/jsonParser.ts:193-204 | `parseValue` is `firstSuccessfulParser` over list, object, bool, null, number and string, in that order |
| JsonProperties.PairOfValue | src/jsonParser.ts:213-219 | with key and colon, the pair throws exactly when its value does; otherwise it pairs the key with what `parseValue` reads from the trimmed text after the colon and leaves that read's rest; a failed value gives a pair holding null, and the rest is the whole trimmed value text |
| JsonProperties.BuildObjectLastWins | src/jsonParser.ts:243 | a key holds the value of its last pair |
| JsonProperties.FindPairEndOfFlatPair | src/jsonParser.ts:63-81 | for a bracket, text without brackets and the closing bracket, the end is just past the closing bracket |
| JsonProperties.NotComposite | src/jsonParser.ts:170-171 | a text starting with neither white space, `[` nor `{` fails as a list and as an object |
| JsonProperties.SucceedsFirstAfter | src/parserCombinator.ts:50 | after outcomes that are not truthy, a truthy outcome is the first success and nothing throws |
| JsonProperties.NoneSucceeds | src/parserCombinator.ts:50-51 | with no exception and no truthy outcome, the choice is `parseFailed(value)` |
| JsonProperties.FirstOfFirst | src/parserCombinator.ts:50-51 | when nothing throws, a truthy first outcome is the one chosen |
| JsonProperties.ValueOfBoolLiteral | src/jsonParser.ts:193-204 | `parseValue` of a text starting with `true` or `false` is that boolean, with the rest after the keyword |
| JsonProperties.ValueOfNullLiteral | src/jsonParser.ts:193-204 | `parseValue` of a text starting with `null` is null, with the rest after the keyword |
| JsonProperties.ValueOfNumber | src/jsonParser.ts:193-204 | `parseValue` of a text starting with a digit or dot is what `parseNumber` reads, when that number is not 0 |
| JsonProperties.ValueOfFalsyNumber | src/jsonParser.ts:193-204 | `parseValue` of a text starting with a digit or dot fails and leaves the input when the number read is 0 and the string alternative gives nothing truthy |
| JsonProperties.ListIsNoObject | src/jsonParser.ts:223-225 | on a leading bracket the object parser fails without throwing |
| JsonProperties.ValueOfList | src/jsonParser.ts:193-204 | `parseValue` of a text starting with a bracket that parses as a list is that list |
| JsonProperties.ParseOfList | src/jsonParser.ts:256-266 | `parse` of such a text is the list, whatever follows it |
| JsonProperties.ParseOfBoolLiteral | src/jsonParser.ts:256-266 | `parse` of a text starting with `true` or `false` is that boolean, whatever follows |
| JsonProperties.ParseOfNullLiteral | src/jsonParser.ts:256-266 | `parse` of a text starting with `null` is null, whatever follows |
| JsonProperties.ObjectOrThrow | src/jsonParser.ts:222-253 | on a leading brace the object parser either throws or gives a truthy object |
| JsonProperties.ParseOfObject | src/jsonParser.ts:256-266 | `parse` of a text starting with a brace is the object `parseObject` reads, or throws when that parser throws |
| JsonExamples.TrueLiteral | src/tests.ts:19 | `true asdf` reads as true, leaving ` asdf` |
| JsonExamples.FalseLiteral | src/tests.ts:20 | `false` reads as false, which is truthy |
| JsonExamples.NullLiteral | src/tests.ts:23 | the text after `null` is left over |
| JsonExamples.ParseTrueLiteral | src/tests.ts:19 | `parse('true asdf')` is true |
| JsonExamples.ParseFalseLiteral | src/tests.ts:20 | `parse('false')` is false |
| JsonExamples.ParseNullLiteral | src/tests.ts:23 | `parse('null"e asdf')` is null |
| JsonExamples.BasicString | src/tests.ts:13 | a quoted text reads as its content |
| JsonExamples.QuoteString | src/tests.ts:14 | the string ends at the first unescaped quote |
| JsonExamples.UnquotedString | src/jsonParser.ts:113-114 | a missing opening quote is not noticed: the first letter is skipped anyway |
| JsonExamples.IntegerLiteralValue | src/jsonParser.ts:41-60 | `123` reads as 123 |
| JsonExamples.IntegerNumber | src/tests.ts:28 | `123 asdfas` reads as 123, leaving ` asdfas` |
| JsonExamples.DecimalLiteralValue | src/jsonParser.ts:41-60 | `12.34` reads as 12.34 |
| JsonExamples.DecimalNumber | src/tests.ts:27 | `12.34 asdf;lqw` reads as 12.34, leaving ` asdf;lqw` |
| JsonExamples.OnlyDecimalLiteralValue | src/jsonParser.ts:41-60 | `.22` reads as 0.22 |
| JsonExamples.OnlyDecimal | src/tests.ts:31 | `.22` parses as 0.22 |
| JsonExamples.ZeroIsFalsy | src/jsonParser.ts:193-204 | `0` reads as the number 0, which is falsy, so `parseValue('0')` passes it over and fails, leaving `0` |
| JsonExamples.EmptyList | src/tests.ts:46 | `[]` is the empty list, whatever follows it |
| JsonExamples.UnclosedList | src/jsonParser.ts:172-176 | `[x` has no closing bracket, so the interior is empty and it reads as the empty list with nothing left |
| JsonExamples.SingleList | src/tests.ts:45 | `[234] asdf` is the list holding 234, leaving ` asdf` |
| JsonExamples.ParseSingleList | src/tests.ts:45 | `parse('[234] asdf')` is the list holding 234 |
| JsonExamples.EmptyObject | src/jsonParser.ts:222-253 | `{}` is the empty object with nothing left |
| JsonExamples.ParseEmptyObject | src/tests.ts:62 | `parse('{}')` is the empty object |
| JsonExamples.OneElementObject | src/tests.ts:64 | `{"a":2}` is the object mapping `a` to 2, with nothing left |
| JsonExamples.ParseOneElementObject | src/tests.ts:64 | `parse('{"a":2}')` is the object mapping `a` to 2 |
| JsonExamples.KeyWithoutColon | src/jsonParser.ts:206-211 | a key with no colon is no pair, and the pair loop throws |
| JsonExamples.KeyWithoutValueThrows | src/jsonParser.ts:237-243 | `{"a"}` throws in the object parser |
| JsonExamples.ParseBareKeyThrows | src/jsonParser.ts:256-266 | `parse('{"a"}')` throws |
| JsonExamples.DuplicateKey | src/jsonParser.ts:243 | of two pairs with the same key, the later one's value is kept |
| JsonExamples.BracketInString | src/jsonParser.ts:63-81 | a bracket inside a string literal is counted like any other |
| JsonExamples.BreaksRemoved | src/jsonParser.ts:92 | deleting newlines can leave a double space behind |
| JsonExamples.OddSpaceRunBreaks | src/jsonParser.ts:92 | deleting double spaces from `a   b` leaves `a b` |
| JsonExamples.OddSpaceRun | src/jsonParser.ts:91-93 | `a   b` keeps one of its three spaces |
| JsonExamples.FirstLetterElements | src/parserCombinator.ts:100-106 | the one-letter parser applied to its own remainders reads every letter of any text, one by one |
| JsonExamples.RecursiveLetters | src/parserCombinator.ts:98-108 | `parseRecursively('1234567', …)` with the one-letter parser is the seven one-letter strings |
| JsonExamples.RecursiveDropsRest | src/parserCombinator.ts:54-68 | the text where the repetition stops is dropped |
| JsonExamples.AlphabetReads | src/parserCombinator.ts:93 | `eitherStringParser('a', 'b', 'c', 'd', 'e')` reads one such letter and leaves what follows |
| JsonExamples.ChunkTextElements | src/parserCombinator.ts:80-88 | after commas, each followed by an optional space and a letter from `a` to `e`, the chunk step reads every letter, in order |
| JsonExamples.DelimitedTextLetters | src/parserCombinator.ts:70-96 | a letter followed by such chunks reads as the list of all its letters, with nothing left |
| JsonExamples.DelimitedLetters | src/parserCombinator.ts:92-96 | `delimitedParser(',', alphabetParser)('a, b, d, a, a,a, a,a')` is the list of the eight letters, with nothing left |

## Left out

- Numbers are exact reals. IEEE-754 doubles and their rounding are not modelled (`12.34` is exactly 12.34 here).
- Text is a sequence of characters. UTF-16 code units and surrogate pairs are not modelled. `IsWhitespace` lists the ECMAScript white space and line terminator code points that `trim` removes.
- The regular expression `/\n|  /g` is modelled by the left-to-right scan `DeleteBreaks`.
- Objects are maps from key to value. JavaScript's key order and the special key `__proto__` are not modelled.
- Stack depth is not modelled. The source's recursion through `parseValue` can overflow the stack on deeply nested input.
- The console helpers `toIntTester`, `testDelimitedParse` and `testRecursiveParse` print, so they are not modelled. The inputs of the last two are worked in `DelimitedLetters` and `RecursiveLetters`. `toIntTester` has no counterpart.
- `tests.ts` prints, so it is not modelled. The inputs of lines 13, 14, 19, 20, 23, 27, 28, 31, 45, 46, 62 and 64 are example lemmas. Those of lines 15 (escaped string), 21 (`String true`), 29, 30, 32 (`No number`), 36, 40, 43, 50, 55, 60, 69 and 74-83 are not worked.
- The unused flag `showTypeParse`, and the unused imports of `assert` and `delimitedParser` in `jsonParser.ts`, have no counterpart.
- The second failure test of `parseNumber` (`literalEnd === invalidIndexKey`) cannot hold, so it has no counterpart.
- ParserCombinator.ParseRecursively: requires the parser to shorten the text whenever it yields a value. The source recurses without end on a parser that does not, until the stack overflows, and the model states no outcome for such parsers.
- ParserCombinator.DelimitedParser: requires the element parser never to lengthen the text, for the same reason.
- JsonParser.ListItems: its own contract only says that an element is added, and that an exception in the current element escapes. Which elements are added is stated separately, by `ListItemsFirst`, `ListItemsKeepsFound` and `ListItemsEntries`, not in closed form.
- JsonParser.ParseList, JsonParser.ParseObject: their own contracts do not give the elements or fields; `ParseListItems`, `ParseListThrows` and `ParseObjectFields` tie them to the loops.
- JsonParser.ObjectPairs: which pairs are added is likewise stated separately, by `ObjectPairsFirst`, `ObjectPairsStops`, `ObjectPairsKeepsFound` and `ObjectPairsEntries`, not in closed form.

=== FILE: json_examples.dfy ===
/**
 Worked inputs of the parsers, among them the inputs of src/tests.ts, with
 what the model gives for each.
 */
module JsonExamples {
  import opened Wrappers
  import opened Text
  import opened Symbols
  import opened ParserCombinator
  import opened JsonTypes
  import opened JsonHelpers
  import opened JsonParser
  import opened JsonProperties

  /** 'True Literal': the literal, then the rest of the text. */
  lemma TrueLiteral()
    ensures ParseBool("true asdf") == Parsed(Some(Bool(true)), " asdf")
  {
  }

  /** 'False Literal': `false` parses, and is truthy. */
  lemma FalseLiteral()
    ensures ParseBool("false") == Parsed(Some(Bool(false)), "")
    ensures IsTruthy(Bool(false))
  {
  }

  /** 'Null Literal': whatever follows the literal is left over. */
  lemma NullLiteral()
    ensures ParseNull("null\"e asdf") == Parsed(Some(Null), "\"e asdf")
  {
  }

  /** 'Basic String'. */
  lemma BasicString()
    ensures ParseString("\"basic string\"") == Parsed(Some("basic string"), "")
  {
    var t := "basic string";
    assert forall j :: 0 <= j < |t| ==> t[j] != '"';
    assert ['"'] + t + JSON_STRING_END + "" == "\"basic string\"";
    ParseStringRoundTrip('"', t, "");
  }

  /** 'Quote String': the string ends at the first unescaped quote. */
  lemma QuoteString()
    ensures ParseString("\"string \" with quotes\"") == Parsed(Some("string "), " with quotes\"")
  {
    var t := "string ";
    assert forall j :: 0 <= j < |t| ==> t[j] != '"';
    assert ['"'] + t + JSON_STRING_END + " with quotes\"" == "\"string \" with quotes\"";
    ParseStringRoundTrip('"', t, " with quotes\"");
  }

  /** The first letter is skipped even when it is not a quote. */
  lemma UnquotedString()
    ensures ParseString("ab\"c") == Parsed(Some("b"), "c")
  {
    assert ['a'] + "b" + JSON_STRING_END + "c" == "ab\"c";
    ParseStringRoundTrip('a', "b", "c");
  }

  /** The value of a three-letter numeral, digit by digit. */
  lemma ThreeDigitValue(s: string)
    requires |s| == 3
    ensures DecimalValue(s) == (DigitValue(s[0]) as real) * 100.0 + (DigitValue(s[1]) as real) * 10.0 + DigitValue(s[2]) as real
  {
    assert s[..1][..0] == [];
    assert DecimalValue(s[..1]) == DigitValue(s[0]) as real;
    assert s[..2][..1] == s[..1];
    assert DecimalValue(s[..2]) == DecimalValue(s[..1]) * 10.0 + DigitValue(s[1]) as real;
  }

  /** The literal `123` reads as 123. */
  lemma IntegerLiteralValue()
    ensures NumericLiteralToNumber("123") == 123.0
  {
    WholeLiteralValue("123");
    ThreeDigitValue("123");
  }

  /** 'Integer number'. */
  lemma IntegerNumber()
    ensures ParseNumber("123 asdfas") == Parsed(Some(Num(123.0)), " asdfas")
  {
    assert "123 asdfas" == "123" + " asdfas";
    ParseNumberReadsRun("123", " asdfas");
    IntegerLiteralValue();
  }

  /** The value of a two-letter numeral, digit by digit. */
  lemma TwoDigitValue(s: string)
    requires |s| == 2
    ensures DecimalValue(s) == (DigitValue(s[0]) as real) * 10.0 + DigitValue(s[1]) as real
  {
    assert s[..1][..0] == [];
    assert DecimalValue(s[..1]) == DigitValue(s[0]) as real;
  }

  /** The literal `12.34` is read as its parts `12` and `34`. */
  lemma DecimalLiteralParts()
    ensures NumericLiteralToNumber("12.34") == DecimalValue("12") + DecimalValue("34") / Pow10(2)
  {
    assert "12.34" == "12" + "." + "34" + "";
    DottedLiteralValue("12", "34", "");
  }

  /** The parts of `12.34`, each read as a whole number. */
  lemma DecimalLiteralDigits()
    ensures DecimalValue("12") == 12.0 && DecimalValue("34") == 34.0 && Pow10(2) == 100.0
  {
    TwoDigitValue("12");
    TwoDigitValue("34");
  }

  /** The literal `12.34` reads as 12.34. */
  lemma DecimalLiteralValue()
    ensures NumericLiteralToNumber("12.34") == 12.34
  {
    DecimalLiteralParts();
    DecimalLiteralDigits();
  }

  /** 'Decimal Number'. */
  lemma DecimalNumber()
    ensures ParseNumber("12.34 asdf;lqw") == Parsed(Some(Num(12.34)), " asdf;lqw")
  {
    assert "12.34 asdf;lqw" == "12.34" + " asdf;lqw";
    ParseNumberReadsRun("12.34", " asdf;lqw");
    DecimalLiteralValue();
  }

  /** The literal `.22` is read as an empty integer part and the part `22`. */
  lemma OnlyDecimalLiteralParts()
    ensures NumericLiteralToNumber(".22") == DecimalValue("") + DecimalValue("22") / Pow10(2)
  {
    assert ".22" == "" + "." + "22" + "";
    DottedLiteralValue("", "22", "");
  }

  /** The part `22` read as a whole number. */
  lemma OnlyDecimalDigits()
    ensures DecimalValue("") == 0.0 && DecimalValue("22") == 22.0 && Pow10(2) == 100.0
  {
    TwoDigitValue("22");
  }

  /** The literal `.22` reads as 0.22. */
  lemma OnlyDecimalLiteralValue()
    ensures NumericLiteralToNumber(".22") == 0.22
  {
    OnlyDecimalLiteralParts();
    OnlyDecimalDigits();
  }

  /** 'Only decimal': no digit before the dot. */
  lemma OnlyDecimal()
    ensures ParseNumber(".22") == Parsed(Some(Num(0.22)), "")
  {
    assert ".22" == ".22" + "";
    ParseNumberReadsRun(".22", "");
    OnlyDecimalLiteralValue();
  }

  /** The literal `0` reads as zero. */
  lemma ZeroLiteralValue()
    ensures NumericLiteralToNumber("0") == 0.0
  {
    WholeLiteralValue("0");
    assert "0"[..0] == "";
  }

  /** Zero is read as a number, but is falsy. */
  lemma ZeroNumber()
    ensures ParseNumber("0") == Parsed(Some(Num(0.0)), "")
    ensures !IsTruthy(Num(0.0))
  {
    assert "0" == "0" + "";
    ParseNumberReadsRun("0", "");
    ZeroLiteralValue();
  }

  /** `0` as a string: no closing quote follows its first letter. */
  lemma ZeroNoString()
    ensures ParseStringValue("0").parsed.None?
  {
  }

  /** Zero is parsed, but is falsy, so `parseValue` passes it over and
      fails, leaving the input. */
  lemma ZeroIsFalsy()
    ensures ParseNumber("0") == Parsed(Some(Num(0.0)), "")
    ensures !IsTruthy(Num(0.0))
    ensures ParseValue("0") == ParseFailed("0")
  {
    ZeroNumber();
    ZeroNoString();
    ValueOfFalsyNumber("0");
  }

  /** 'Empty List', followed by any text. */
  lemma EmptyList(rest: string)
    ensures ParseList("[]" + rest) == Parsed(Some(List([])), rest)
  {
    var v := "[]" + rest;
    assert v == ['['] + "" + [']'] + rest;
    FindPairEndOfFlatPair(v, '[', ']', "", rest);
    assert v[2..] == rest;
  }

  /** An unclosed list runs to the end of the text and reads as the empty list. */
  lemma UnclosedList()
    ensures ParseList("[x") == Parsed(Some(List([])), "")
  {
    var v := "[x";
    assert v[..1] == JSON_LIST_START;
    assert FindPairEnd(v, JSON_LIST_START, JSON_LIST_END) == 2;
    assert ListInterior(v) == [];
  }

  /** The literal `234` reads as 234. */
  lemma SingleLiteralValue()
    ensures NumericLiteralToNumber("234") == 234.0
  {
    WholeLiteralValue("234");
    ThreeDigitValue("234");
  }

  /** `234` as a value: the number 234, with nothing left. */
  lemma SingleValue()
    ensures ParseValue("234") == Parsed(Some(Num(234.0)), "")
  {
    assert "234" == "234" + "";
    ParseNumberReadsRun("234", "");
    SingleLiteralValue();
    ValueOfNumber("234");
  }

  /** The brackets of `[234] asdf` enclose `234`. */
  lemma SingleListBrackets()
    ensures FindPairEnd("[234] asdf", JSON_LIST_START, JSON_LIST_END) == 5
    ensures ListInterior("[234] asdf") == "234"
    ensures StartsWith("[234] asdf", JSON_LIST_START) && "[234] asdf"[5..] == " asdf"
  {
    var v := "[234] asdf";
    assert v == ['['] + "234" + [']'] + " asdf";
    FindPairEndOfFlatPair(v, '[', ']', "234", " asdf");
    assert v[..1] == JSON_LIST_START;
  }

  /** The list loop reads one element from `234` and stops. */
  lemma SingleListItems()
    ensures ListItems("234", []) == Parsed(Some([Some(Num(234.0))]), "")
  {
    SingleValue();
    ListItemsFirst("234", []);
    assert [] + [Some(Num(234.0))] == [Some(Num(234.0))];
  }

  /** 'Single List': the list of one number, then the text after it. */
  lemma SingleList()
    ensures ParseList("[234] asdf") == Parsed(Some(List([Some(Num(234.0))])), " asdf")
  {
    SingleListBrackets();
    SingleListItems();
    ParseListItems("[234] asdf");
  }

  /** 'Single List' through the facade. */
  lemma ParseSingleList()
    ensures Parse("[234] asdf") == Returned(Some(List([Some(Num(234.0))])))
  {
    SingleList();
    ParseOfList("[234] asdf");
  }

  /** 'Empty object'. */
  lemma EmptyObject()
    ensures ParseObject("{}") == Parsed(Some(Obj(map[])), "")
  {
    var v := "{}";
    TrimUnchanged(v);
    DeleteBreaksUnchanged(v);
    assert v == ['{'] + "" + ['}'] + "";
    FindPairEndOfFlatPair(v, '{', '}', "", "");
  }

  /** 'Empty object' through the facade. */
  lemma ParseEmptyObject()
    ensures Parse("{}") == Returned(Some(Obj(map[])))
  {
    EmptyObject();
    ParseOfObject("{}");
  }

  /** 'Null Literal' through the facade. */
  lemma ParseNullLiteral()
    ensures Parse("null\"e asdf") == Returned(Some(Null))
  {
    ParseOfNullLiteral("null\"e asdf");
  }

  /** 'True Literal' through the facade. */
  lemma ParseTrueLiteral()
    ensures Parse("true asdf") == Returned(Some(Bool(true)))
  {
    ParseOfBoolLiteral("true asdf", true);
  }

  /** 'False Literal' through the facade: `false` is truthy, so it is kept. */
  lemma ParseFalseLiteral()
    ensures Parse("false") == Returned(Some(Bool(false)))
  {
    ParseOfBoolLiteral("false", false);
  }

  /** A key not followed by a colon is no pair, and the pair loop throws. */
  lemma KeyWithoutColon()
    ensures ParseKeyValuePair("\"a\"") == ParseFailed("\"a\"")
    ensures ObjectPairs("\"a\"", []) == Throw
  {
    var inner := "\"a\"";
    TrimUnchanged(inner);
    assert inner == ['"'] + "a" + JSON_STRING_END + "";
    ParseStringRoundTrip('"', "a", "");
    assert !HasKeyAndColon(inner);
  }

  /** Stripping leaves the object `{"a"}` as it is. */
  lemma BareKeyObjectStripped()
    ensures RemoveInsignificantWhitespace("{\"a\"}") == "{\"a\"}"
  {
    TrimUnchanged("{\"a\"}");
    DeleteBreaksUnchanged("{\"a\"}");
  }

  /** The braces of `{"a"}` enclose the bare key. */
  lemma BareKeyObjectInterior()
    ensures ObjectInterior("{\"a\"}") == "\"a\""
  {
    var v := "{\"a\"}";
    assert v == ['{'] + "\"a\"" + ['}'] + "";
    FindPairEndOfFlatPair(v, '{', '}', "\"a\"", "");
  }

  /** A key without a colon makes `parseObject` throw. */
  lemma KeyWithoutValueThrows()
    ensures ParseObject("{\"a\"}").Throw?
  {
    BareKeyObjectStripped();
    BareKeyObjectInterior();
    KeyWithoutColon();
  }

  /** The exception escapes the facade. */
  lemma ParseBareKeyThrows()
    ensures Parse("{\"a\"}") == Threw
  {
    KeyWithoutValueThrows();
  }

  /** `{"a":2}` has no white space to strip. */
  lemma OneElementStripped()
    ensures RemoveInsignificantWhitespace("{\"a\":2}") == "{\"a\":2}"
  {
    TrimUnchanged("{\"a\":2}");
    DeleteBreaksUnchanged("{\"a\":2}");
  }

  /** The braces of `{"a":2}` enclose `"a":2`. */
  lemma OneElementBraces()
    ensures FindPairEnd("{\"a\":2}", JSON_OBJECT_START, JSON_OBJECT_END) == 7
    ensures ObjectInterior("{\"a\":2}") == "\"a\":2"
    ensures StartsWith("{\"a\":2}", JSON_OBJECT_START) && "{\"a\":2}"[7..] == ""
  {
    var v := "{\"a\":2}";
    assert v == ['{'] + "\"a\":2" + ['}'] + "";
    FindPairEndOfFlatPair(v, '{', '}', "\"a\":2", "");
    assert v[..1] == JSON_OBJECT_START;
  }

  /** The pair text `"a":2` has no white space to trim. */
  lemma OneElementTrimmed()
    ensures Trim("\"a\":2") == "\"a\":2"
  {
    TrimUnchanged("\"a\":2");
  }

  /** The key `a`, then the colon and the rest. */
  lemma OneElementKeyString()
    ensures ParseString("\"a\":2") == Parsed(Some("a"), ":2")
  {
    assert "\"a\":2" == ['"'] + "a" + JSON_STRING_END + ":2";
    ParseStringRoundTrip('"', "a", ":2");
  }

  /** The key `a`, then the colon, then the value text `2`. */
  lemma OneElementKey()
    ensures HasKeyAndColon("\"a\":2") && ValueText("\"a\":2") == "2"
  {
    OneElementKeyString();
    assert ":2"[..1] == JSON_KV_DELIMITER && ":2"[1..] == "2";
    TrimUnchanged("2");
  }

  /** `2` as a value: the number 2, with nothing left. */
  lemma TwoValue()
    ensures ParseValue("2") == Parsed(Some(Num(2.0)), "")
  {
    assert "2" == "2" + "";
    ParseNumberReadsRun("2", "");
    WholeLiteralValue("2");
    assert "2"[..0] == "";
    ValueOfNumber("2");
  }

  /** The pair `"a":2`. */
  lemma OneElementPair()
    ensures ParseKeyValuePair("\"a\":2") == Parsed(Some(Pair("a", Some(Num(2.0)))), "")
  {
    OneElementKeyString();
    OneElementKey();
    TwoValue();
    PairOfValue("\"a\":2");
  }

  /** The pair loop reads the one pair and stops. */
  lemma OneElementPairs()
    ensures ObjectPairs("\"a\":2", []) == Parsed(Some([Pair("a", Some(Num(2.0)))]), "")
  {
    OneElementTrimmed();
    OneElementPair();
    ObjectPairsStops("\"a\":2", []);
    assert [] + [Pair("a", Some(Num(2.0)))] == [Pair("a", Some(Num(2.0)))];
  }

  /** One pair builds the object with one field. */
  lemma OneElementFields()
    ensures BuildObject([Pair("a", Some(Num(2.0)))]) == map["a" := Some(Num(2.0))]
  {
    var pairs := [Pair("a", Some(Num(2.0)))];
    assert pairs[..0] == [];
  }

  /** '1 Element object'. */
  lemma OneElementObject()
    ensures ParseObject("{\"a\":2}") == Parsed(Some(Obj(map["a" := Some(Num(2.0))])), "")
  {
    var v := "{\"a\":2}";
    OneElementStripped();
    OneElementBraces();
    OneElementPairs();
    OneElementFields();
    ParseObjectFields(v);
  }

  /** '1 Element object' through the facade. */
  lemma ParseOneElementObject()
    ensures Parse("{\"a\":2}") == Returned(Some(Obj(map["a" := Some(Num(2.0))])))
  {
    OneElementObject();
    ParseOfObject("{\"a\":2}");
  }

  /** Assigning the same key twice keeps the second value. */
  lemma DuplicateKey()
    ensures BuildObject([Pair("a", Some(Num(1.0))), Pair("a", Some(Num(2.0)))]) == map["a" := Some(Num(2.0))]
  {
    var pairs := [Pair("a", Some(Num(1.0))), Pair("a", Some(Num(2.0)))];
    assert pairs[..1] == [pairs[0]];
    assert pairs[..1][..0] == [];
  }

  /** A bracket inside a string literal is counted like any other. */
  lemma BracketInString()
    ensures FindPairEnd("[\"]\"]", JSON_LIST_START, JSON_LIST_END) == 3
  {
    assert "[\"]\"]" == ['['] + "\"" + [']'] + "\"]";
    FindPairEndOfFlatPair("[\"]\"]", '[', ']', "\"", "\"]");
  }

  /** Line breaks and double spaces go; a single space stays. */
  lemma BreaksRemoved()
    ensures DeleteBreaks("a \n b") == "a  b"
  {
  }

  /** Of a run of three spaces, one pair goes and one space stays. */
  lemma OddSpaceRunBreaks()
    ensures DeleteBreaks("a   b") == "a b"
  {
    var v := "a   b";
    assert v[1..] == Spaces(3) + "b" by { SpacesB(); }
    assert !StartsWith(v, "  ") && v[0] == 'a';
    assert DeleteBreaks(v) == ['a'] + DeleteBreaks(Spaces(3) + "b");
    DeleteBreaksSpaces(3, "b");
    assert DeleteBreaks("b") == "b";
    assert Spaces(1) == " ";
  }

  /** The tail of `a   b`, written as a run of spaces and a letter. */
  lemma SpacesB()
    ensures "a   b"[1..] == Spaces(3) + "b"
  {
    assert Spaces(3) == "   ";
  }

  /** Stripping `a   b` keeps one of its three spaces. */
  lemma OddSpaceRun()
    ensures RemoveInsignificantWhitespace("a   b") == "a b"
  {
    TrimUnchanged("a   b");
    OddSpaceRunBreaks();
  }

  /** The parser of the recursion example in src/parserCombinator.ts: one
      letter, failing on the empty text. */
  function FirstLetter(v: string): (r: Parsed<string>)
    ensures r.Parsed?
    ensures r.parsed.Some? <==> v != []
    ensures r.parsed.Some? ==> r.parsed.value + r.unparsed == v && |r.parsed.value| == 1
  {
    if |v| != 0 then Parsed(Some([v[0]]), v[1..]) else ParseFailed(v)
  }

  /** Each letter of a text as a one-letter string. */
  function Singles(s: string): (r: seq<string>)
    ensures |r| == |s|
    ensures forall i :: 0 <= i < |s| ==> r[i] == [s[i]]
  {
    if s == [] then [] else [[s[0]]] + Singles(s[1..])
  }

  /** The one-letter parser, applied to its own remainders, reads every
      letter of any text. */
  lemma {:induction false} FirstLetterElements(s: string)
    ensures Elements(FirstLetter, s) == Some(Singles(s))
    decreases |s|
  {
    if s != [] {
      FirstLetterElements(s[1..]);
      assert FirstLetter(s) == Parsed(Some([s[0]]), s[1..]);
    }
  }

  /** The letters of `1234567` one by one. */
  lemma SevenSingles()
    ensures Singles("1234567") == ["1", "2", "3", "4", "5", "6", "7"]
  {
  }

  /** The recursion example of src/parserCombinator.ts: `parseRecursively`
      with the one-letter parser reads every letter of `1234567`. */
  lemma RecursiveLetters()
    ensures ParseRecursively("1234567", FirstLetter, []) == Parsed(Some(["1", "2", "3", "4", "5", "6", "7"]), "")
  {
    FirstLetterElements("1234567");
    ParseRecursivelyIsElements("1234567", FirstLetter, []);
    SevenSingles();
    assert [] + ["1", "2", "3", "4", "5", "6", "7"] == ["1", "2", "3", "4", "5", "6", "7"];
  }

  /** One letter "a" at a time. */
  function LetterA(v: string): (r: Parsed<string>)
    ensures r.Parsed? && (r.parsed.Some? <==> |v| > 0 && v[0] == 'a')
  {
    MatchStringParser("a", v)
  }

  /** `parseRecursively` drops the text where it stops. */
  lemma RecursiveDropsRest()
    ensures ParseRecursively("aab", LetterA, []) == Parsed(Some(["a", "a"]), "")
  {
    assert [] + ["a"] == ["a"] && ["a"] + ["a"] == ["a", "a"];
    assert LetterA("b") == ParseFailed("b");
    assert ParseRecursively("b", LetterA, ["a", "a"]) == Parsed(Some(["a", "a"]), "");
    assert "ab"[..1] == "a" && "aab"[..1] == "a";
    assert LetterA("ab") == Parsed(Some("a"), "b");
    assert ParseRecursively("ab", LetterA, ["a"]) == ParseRecursively("b", LetterA, ["a"] + ["a"]);
    assert LetterA("aab") == Parsed(Some("a"), "ab");
    assert ParseRecursively("aab", LetterA, []) == ParseRecursively("ab", LetterA, [] + ["a"]);
  }

  /** The element parser of the delimited example of
      src/parserCombinator.ts: `eitherStringParser('a', 'b', 'c', 'd', 'e')`. */
  function Alphabet(v: string): (r: Parsed<string>)
    ensures r.Parsed?
    ensures r.parsed.Some? ==> r.parsed.value + r.unparsed == v
  {
    EitherStringParser(["a", "b", "c", "d", "e"], v)
  }

  /** `Alphabet` never adds text. */
  lemma AlphabetNeverLengthens()
    ensures NeverLengthens(Alphabet)
  {
    forall s: string
      ensures Alphabet(s).Parsed? && Alphabet(s).parsed.Some? ==> |Alphabet(s).unparsed| <= |s|
    {
    }
  }

  /** `Alphabet` reads a leading letter from `a` to `e` and leaves the rest. */
  lemma AlphabetReads(c: char, rest: string)
    requires 'a' <= c <= 'e'
    ensures Alphabet([c] + rest) == Parsed(Some([c]), rest)
  {
    var options := ["a", "b", "c", "d", "e"];
    var v := [c] + rest;
    var i := (c as int) - ('a' as int);
    assert options[i] == [c];
    assert v[..1] == [c];
    assert OptionMatches(options[i], v);
    forall j | 0 <= j < i
      ensures !OptionMatches(options[j], v)
    {
      assert options[j][0] != c;
    }
    var r := Alphabet(v);
    assert r.parsed.value + r.unparsed == [c] + rest;
  }

  /** What may follow a comma: a space or nothing. */
  function Gap(space: bool): string
  {
    if space then " " else ""
  }

  /**
   The text after the first element of a comma-separated run of letters:
   every further letter follows a comma and, where `spaces` says so, a space.
   */
  function ChunkText(spaces: seq<bool>, letters: string): (r: string)
    requires |spaces| == |letters|
    ensures letters != [] ==> r != [] && r[|r| - 1] == letters[|letters| - 1]
  {
    if letters == [] then ""
    else [','] + (Gap(spaces[0]) + ([letters[0]] + ChunkText(spaces[1..], letters[1..])))
  }

  /** Trimming a gap and a letter leaves the letter and what follows it. */
  lemma GapTrim(space: bool, c: char, rest: string)
    requires 'a' <= c <= 'e'
    requires rest == [] || !IsWhitespace(rest[|rest| - 1])
    ensures Trim(Gap(space) + ([c] + rest)) == [c] + rest
  {
    TrimUnchanged([c] + rest);
    if space {
      TrimDropsLeading(" " + ([c] + rest));
      assert (" " + ([c] + rest))[1..] == [c] + rest;
    } else {
      assert "" + ([c] + rest) == [c] + rest;
    }
  }

  /** The letters `a` to `e` are not white space. */
  lemma LetterNotWhitespace(c: char)
    requires 'a' <= c <= 'e'
    ensures !IsWhitespace(c)
  {
  }

  /** One chunk step: the comma, an optional space, then a letter read by
      `Alphabet`; the rest is left as it is. */
  lemma ChunkStep(space: bool, c: char, rest: string)
    requires 'a' <= c <= 'e'
    requires rest == [] || !IsWhitespace(rest[|rest| - 1])
    ensures NeverLengthens(Alphabet)
    ensures ChunkParser(",", Alphabet)([','] + (Gap(space) + ([c] + rest))) == Parsed(Some([c]), rest)
  {
    AlphabetNeverLengthens();
    var after := Gap(space) + ([c] + rest);
    var chunk := [','] + after;
    assert chunk[..1] == "," && chunk[1..] == after;
    assert DelimitedChunk(",", Alphabet, chunk) == Alphabet(Trim(after));
    GapTrim(space, c, rest);
    AlphabetReads(c, rest);
    assert ChunkParser(",", Alphabet)(chunk) == DelimitedChunk(",", Alphabet, chunk);
  }

  /** The chunk step, repeated over a comma-separated run of letters, reads
      every letter. */
  lemma {:induction false} ChunkTextElements(spaces: seq<bool>, letters: string)
    requires |spaces| == |letters|
    requires forall i :: 0 <= i < |letters| ==> 'a' <= letters[i] <= 'e'
    ensures NeverLengthens(Alphabet)
    ensures Elements(ChunkParser(",", Alphabet), ChunkText(spaces, letters)) == Some(Singles(letters))
    decreases |letters|
  {
    AlphabetNeverLengthens();
    var chunk := ChunkParser(",", Alphabet);
    if letters == [] {
      assert chunk("") == DelimitedChunk(",", Alphabet, "") == ParseFailed("");
    } else {
      var c := letters[0];
      var rest := ChunkText(spaces[1..], letters[1..]);
      assert forall i :: 0 <= i < |letters[1..]| ==> letters[1..][i] == letters[i + 1];
      ChunkTextElements(spaces[1..], letters[1..]);
      if rest != [] {
        LetterNotWhitespace(rest[|rest| - 1]);
      }
      ChunkStep(spaces[0], c, rest);
      assert ChunkText(spaces, letters) == [','] + (Gap(spaces[0]) + ([c] + rest));
      assert chunk(ChunkText(spaces, letters)) == Parsed(Some([c]), rest);
      assert Singles(letters) == [[c]] + Singles(letters[1..]);
    }
  }

  /** The last three chunks of the source's delimited input. */
  lemma SourceChunks3()
    ensures ChunkText([false, true, false], "aaa") == ",a, a,a"
  {
    assert ChunkText([false], "a") == ",a";
    assert ChunkText([true, false], "aa") == ", a,a";
  }

  /** The last five chunks of the source's delimited input. */
  lemma SourceChunks5()
    ensures ChunkText([true, true, false, true, false], "aaaaa") == ", a, a,a, a,a"
  {
    SourceChunks3();
    assert ChunkText([true, false, true, false], "aaaa") == ", a,a, a,a";
  }

  /** The last six chunks of the source's delimited input. */
  lemma SourceChunks6()
    ensures ChunkText([true, true, true, false, true, false], "daaaaa") == ", d, a, a,a, a,a"
  {
    SourceChunks5();
  }

  /** The source's delimited input after its first letter. */
  lemma SourceChunkText()
    ensures ChunkText([true, true, true, true, false, true, false], "bdaaaaa") == ", b, d, a, a,a, a,a"
  {
    SourceChunks6();
    assert ChunkText([true, true, true, true, false, true, false], "bdaaaaa")
        == [','] + (Gap(true) + (['b'] + ", d, a, a,a, a,a"));
    SourceTailJoin();
  }

  /** The source's delimited input after its first letter, split at the
      second letter. */
  lemma SourceTailJoin()
    ensures [','] + (" " + (['b'] + ", d, a, a,a, a,a")) == ", b, d, a, a,a, a,a"
  {
  }

  /** The source's delimited input, split at its first letter. */
  lemma SourceHeadJoin()
    ensures ['a'] + ", b, d, a, a,a, a,a" == "a, b, d, a, a,a, a,a"
  {
  }

  /** A letter followed by delimited chunks of letters is read letter by
      letter, and nothing is left over. */
  lemma DelimitedTextLetters(c: char, spaces: seq<bool>, letters: string)
    requires 'a' <= c <= 'e'
    requires |spaces| == |letters|
    requires forall i :: 0 <= i < |letters| ==> 'a' <= letters[i] <= 'e'
    ensures DelimitedParser(",", Alphabet, NonEmpty, [c] + ChunkText(spaces, letters))
            == Parsed(Some(Singles([c] + letters)), "")
  {
    var input := [c] + ChunkText(spaces, letters);
    AlphabetReads(c, ChunkText(spaces, letters));
    ChunkTextElements(spaces, letters);
    DelimitedParserElements(",", Alphabet, NonEmpty, input);
    assert ([c] + letters)[1..] == letters;
  }

  /** The source's delimited input is its first letter and its chunks. */
  lemma SourceInput()
    ensures "a, b, d, a, a,a, a,a" == ['a'] + ChunkText([true, true, true, true, false, true, false], "bdaaaaa")
  {
    SourceChunkText();
    SourceHeadJoin();
  }

  /** The letters of the source's delimited input, one by one. */
  lemma SourceLetters()
    ensures forall i :: 0 <= i < |"bdaaaaa"| ==> 'a' <= "bdaaaaa"[i] <= 'e'
    ensures Singles(['a'] + "bdaaaaa") == ["a", "b", "d", "a", "a", "a", "a", "a"]
  {
    assert ['a'] + "bdaaaaa" == "abdaaaaa";
  }

  /** The delimited example of src/parserCombinator.ts: letters separated by
      commas, some followed by a space, read one by one. */
  lemma DelimitedLetters()
    ensures NeverLengthens(Alphabet)
    ensures DelimitedParser(",", Alphabet, NonEmpty, "a, b, d, a, a,a, a,a")
            == Parsed(Some(["a", "b", "d", "a", "a", "a", "a", "a"]), "")
  {
    AlphabetNeverLengthens();
    SourceInput();
    SourceLetters();
    DelimitedTextLetters('a', [true, true, true, true, false, true, false], "bdaaaaa");
  }
}

=== FILE: json_helpers.dfy ===
/**
 The scanning helpers of src/jsonParser.ts: `numericLiteralToNumber`,
 `findPairEnd` and `removeInsignificantWhitespace`.
 */
module JsonHelpers {
  import opened Text

  /* ---------------------------------------------------------------------- */
  /* numericLiteralToNumber                                                  */
  /* ---------------------------------------------------------------------- */

  /** `'0123456789'.split('').indexOf(c)`: the digit's value, or -1. */
  function DigitValue(c: char): (d: int)
    ensures -1 <= d <= 9
    ensures d == -1 <==> !('0' <= c <= '9')
    ensures 0 <= d ==> "0123456789"[d] == c
  {
    if '0' <= c <= '9' then (c as int) - ('0' as int) else -1
  }

  function Pow10(n: nat): (p: real)
    ensures p >= 1.0
  {
    if n == 0 then 1.0 else 10.0 * Pow10(n - 1)
  }

  /** `numbers.indexOf(digit) * 10 ** e`: a digit's value at an integer
      exponent, computed exactly. */
  function Weighted(c: char, e: int): real
  {
    if e >= 0 then (DigitValue(c) as real) * Pow10(e) else (DigitValue(c) as real) / Pow10(-e)
  }

  /** One place further left weighs ten times as much. */
  lemma WeightedShift(c: char, k: nat)
    ensures Weighted(c, k + 1) == 10.0 * Weighted(c, k)
  {
    var d := DigitValue(c) as real;
    assert Pow10(k + 1) == 10.0 * Pow10(k);
    assert d * (10.0 * Pow10(k)) == 10.0 * (d * Pow10(k));
  }

  /**
   `numericReduce(digits, exponent)`: the left fold adding, for the digit at
   index i, its value times `10 ** exponent(i)`.
   */
  function NumericReduce(digits: string, exponent: nat -> int): real
  {
    if digits == [] then 0.0
    else
      var i := |digits| - 1;
      NumericReduce(digits[..i], exponent) + Weighted(digits[i], exponent(i))
  }

  /** `s.split('').reverse().join('')` */
  function Reverse(s: string): (r: string)
    ensures |r| == |s|
    ensures forall i :: 0 <= i < |s| ==> r[i] == s[|s| - 1 - i]
  {
    if s == [] then [] else Reverse(s[1..]) + [s[0]]
  }

  /** Index of the first `c` in `s`, or `|s|` when there is none. */
  function FirstIndex(s: string, c: char): (k: nat)
    ensures k <= |s|
    ensures forall i :: 0 <= i < k ==> s[i] != c
    ensures k < |s| ==> s[k] == c
  {
    if s == [] || s[0] == c then 0 else 1 + FirstIndex(s[1..], c)
  }

  /** `numericLiteral.split('.')[0]` */
  function IntegerLiteral(literal: string): string
  {
    literal[..FirstIndex(literal, '.')]
  }

  /** `numericLiteral.split('.')[1]`, with `undefined` read as the empty string. */
  function DecimalLiteral(literal: string): string
  {
    var k := FirstIndex(literal, '.');
    if k == |literal| then ""
    else
      var after := literal[k + 1..];
      after[..FirstIndex(after, '.')]
  }

  /** The exponent `(i) => i` the integer digits, reversed, are weighed with. */
  function WholeWeight(i: nat): int
  {
    i
  }

  /** The exponent `(i) => -(i + 1)` the decimal digits are weighed with. */
  function FractionWeight(i: nat): int
  {
    -(i + 1)
  }

  /**
   `numericLiteralToNumber`, with exact real arithmetic: the usual value of
   the integer part plus that of the decimal part shifted right by its length.
   */
  function NumericLiteralToNumber(numericLiteral: string): (r: real)
    ensures var decLiteral := DecimalLiteral(numericLiteral);
            r == DecimalValue(IntegerLiteral(numericLiteral)) + DecimalValue(decLiteral) / Pow10(|decLiteral|)
  {
    var intLiteral := IntegerLiteral(numericLiteral);
    var decLiteral := DecimalLiteral(numericLiteral);
    IntegerPartValue(intLiteral);
    FractionPartValue(decLiteral);
    var integer := NumericReduce(Reverse(intLiteral), WholeWeight);
    var decimal := if decLiteral != "" then NumericReduce(decLiteral, FractionWeight) else 0.0;
    integer + decimal
  }

  /** Reference reading of a digit string: the usual base-10 value, most
      significant digit first. */
  function DecimalValue(digits: string): real
  {
    if digits == [] then 0.0
    else DecimalValue(digits[..|digits| - 1]) * 10.0 + DigitValue(digits[|digits| - 1]) as real
  }

  /** The leading digit of a numeral weighs `10 ** (length - 1)`. */
  lemma {:induction false} DecimalValueLeading(s: string)
    requires s != []
    ensures DecimalValue(s) == Weighted(s[0], |s| - 1) + DecimalValue(s[1..])
    decreases |s|
  {
    var n := |s|;
    if n == 1 {
      assert s[1..] == [];
      assert s[..0] == [];
      assert Weighted(s[0], 0) == DigitValue(s[0]) as real;
    } else {
      var init := s[..n - 1];
      var tail := s[1..];
      DecimalValueLeading(init);
      assert init[0] == s[0];
      assert init[1..] == tail[..n - 2];
      assert tail[n - 2] == s[n - 1];
      WeightedShift(s[0], n - 2);
    }
  }

  /** Dropping the last letter of `Reverse(s)` gives the reverse of `s[1..]`. */
  lemma ReverseFront(s: string)
    requires s != []
    ensures Reverse(s)[..|s| - 1] == Reverse(s[1..])
    ensures Reverse(s)[|s| - 1] == s[0]
  {
  }

  /** The integer part: the reversed digits weighted `10 ** i` are the usual value. */
  lemma {:induction false} IntegerPartValue(s: string)
    ensures NumericReduce(Reverse(s), WholeWeight) == DecimalValue(s)
    decreases |s|
  {
    if s != [] {
      var n := |s|;
      var r := Reverse(s);
      ReverseFront(s);
      IntegerPartValue(s[1..]);
      DecimalValueLeading(s);
      // the fold's last step adds the leading digit of `s`
      assert NumericReduce(r, WholeWeight) == NumericReduce(r[..n - 1], WholeWeight) + Weighted(r[n - 1], WholeWeight(n - 1));
      assert WholeWeight(n - 1) == n - 1;
    }
  }

  /** One more fractional digit: `a / p + d / (10 p) == (10 a + d) / (10 p)`. */
  lemma AppendFractionDigit(a: real, d: real, p: real, q: real)
    requires p >= 1.0 && q == 10.0 * p
    ensures a / p + d / q == (a * 10.0 + d) / q
  {
    assert a / p == (a * 10.0) / q;
  }

  /** The fractional part: the i-th digit weighted `10 ** -(i + 1)` is the
      digits' usual value shifted right by their count. */
  lemma {:induction false} FractionPartValue(s: string)
    ensures NumericReduce(s, FractionWeight) == DecimalValue(s) / Pow10(|s|)
    decreases |s|
  {
    if s != [] {
      var n := |s|;
      var init := s[..n - 1];
      FractionPartValue(init);
      // the fold's last step adds the last fractional digit
      assert NumericReduce(s, FractionWeight) == NumericReduce(init, FractionWeight) + Weighted(s[n - 1], FractionWeight(n - 1));
      assert FractionWeight(n - 1) == -n;
      assert Weighted(s[n - 1], -n) == (DigitValue(s[n - 1]) as real) / Pow10(n);
      AppendFractionDigit(DecimalValue(init), DigitValue(s[n - 1]) as real, Pow10(n - 1), Pow10(n));
    }
  }

  /** A literal without a dot is read as a whole number. */
  lemma WholeLiteralValue(digits: string)
    requires '.' !in digits
    ensures NumericLiteralToNumber(digits) == DecimalValue(digits)
  {
    FirstIndexPast(digits, [], '.');
    assert digits + [] == digits;
    assert IntegerLiteral(digits) == digits;
    assert DecimalLiteral(digits) == [];
  }

  /** Looking for `c` past a prefix that lacks it. */
  lemma {:induction false} FirstIndexPast(a: string, b: string, c: char)
    requires c !in a
    ensures FirstIndex(a + b, c) == |a| + FirstIndex(b, c)
    decreases |a|
  {
    if a != [] {
      assert (a + b)[1..] == a[1..] + b;
      FirstIndexPast(a[1..], b, c);
    } else {
      assert a + b == b;
    }
  }

  /** How `split('.')` cuts `int.frac` followed by nothing or by another dot. */
  lemma DottedLiteralSplit(intDigits: string, fracDigits: string, tail: string)
    requires '.' !in intDigits && '.' !in fracDigits
    requires tail == [] || tail[0] == '.'
    ensures IntegerLiteral(intDigits + "." + fracDigits + tail) == intDigits
    ensures DecimalLiteral(intDigits + "." + fracDigits + tail) == fracDigits
  {
    var literal := intDigits + ("." + (fracDigits + tail));
    assert literal == intDigits + "." + fracDigits + tail;
    FirstIndexPast(intDigits, "." + (fracDigits + tail), '.');
    var k := |intDigits|;
    assert literal[..k] == intDigits;
    var after := literal[k + 1..];
    assert after == fracDigits + tail;
    FirstIndexPast(fracDigits, tail, '.');
    assert after[..|fracDigits|] == fracDigits;
  }

  /** `int.frac` followed by nothing or by another dot: the usual decimal
      value of `int.frac`; what follows a second dot is ignored, and an empty
      part counts as zero. */
  lemma DottedLiteralValue(intDigits: string, fracDigits: string, tail: string)
    requires '.' !in intDigits && '.' !in fracDigits
    requires tail == [] || tail[0] == '.'
    ensures NumericLiteralToNumber(intDigits + "." + fracDigits + tail)
            == DecimalValue(intDigits) + DecimalValue(fracDigits) / Pow10(|fracDigits|)
  {
    DottedLiteralSplit(intDigits, fracDigits, tail);
  }

  /* ---------------------------------------------------------------------- */
  /* findPairEnd                                                             */
  /* ---------------------------------------------------------------------- */

  /** Number of letters of `s` equal to the string `c`. */
  function CountOf(s: string, c: string): nat
  {
    if s == [] then 0
    else CountOf(s[..|s| - 1], c) + (if [s[|s| - 1]] == c then 1 else 0)
  }

  /** The first k letters hold as many start as end characters. */
  predicate BalancedAt(value: string, startCharacter: string, endCharacter: string, k: nat)
    requires k <= |value|
  {
    CountOf(value[..k], startCharacter) == CountOf(value[..k], endCharacter)
  }

  /** The `for` loop of `findPairEnd` from letter i on, with the counts so far. */
  function PairEndFrom(value: string, startCharacter: string, endCharacter: string, i: nat, opens: nat, closes: nat): (r: nat)
    requires i <= |value|
    requires opens == CountOf(value[..i], startCharacter)
    requires closes == CountOf(value[..i], endCharacter)
    requires forall k :: 1 <= k <= i ==> !BalancedAt(value, startCharacter, endCharacter, k)
    ensures i <= r <= |value|
    ensures i < |value| ==> i < r
    ensures r == |value| || BalancedAt(value, startCharacter, endCharacter, r)
    ensures forall k :: 1 <= k < r ==> !BalancedAt(value, startCharacter, endCharacter, k)
    decreases |value| - i
  {
    if i == |value| then i
    else
      var letter := [value[i]];
      var opens' := opens + (if letter == startCharacter then 1 else 0);
      var closes' := closes + (if letter == endCharacter then 1 else 0);
      assert value[..i + 1][..i] == value[..i];
      if opens' == closes' then i + 1
      else PairEndFrom(value, startCharacter, endCharacter, i + 1, opens', closes')
  }

  /**
   `findPairEnd(value, start, end)`: the least k >= 1 whose k-letter prefix
   holds as many start as end characters, or the length when there is none.
   Letters inside string literals are counted like any others.
   */
  function FindPairEnd(value: string, startCharacter: string, endCharacter: string): (r: nat)
    ensures r <= |value|
    ensures |value| > 0 ==> 1 <= r
    ensures r == |value| || BalancedAt(value, startCharacter, endCharacter, r)
    ensures forall k :: 1 <= k < r ==> !BalancedAt(value, startCharacter, endCharacter, k)
  {
    PairEndFrom(value, startCharacter, endCharacter, 0, 0, 0)
  }

  /* ---------------------------------------------------------------------- */
  /* removeInsignificantWhitespace                                           */
  /* ---------------------------------------------------------------------- */

  /** `s` without its spaces and newlines. */
  function NonBlank(s: string): string
  {
    if s == [] then []
    else if s[0] == ' ' || s[0] == '\n' then NonBlank(s[1..])
    else [s[0]] + NonBlank(s[1..])
  }

  /**
   `s.replace(/\n|  /g, '')`: scanning left to right, each newline and each
   pair of spaces is deleted. Only spaces and newlines go, and no newline is
   left; a double space can remain (`"a \n b"` becomes `"a  b"`).
   */
  function DeleteBreaks(s: string): (r: string)
    ensures |r| <= |s|
    ensures forall i :: 0 <= i < |r| ==> r[i] != '\n'
    ensures NonBlank(r) == NonBlank(s)
    ensures s != [] && s[0] != ' ' && s[0] != '\n' ==> r != [] && r[0] == s[0]
    ensures r == [] ==> forall i :: 0 <= i < |s| ==> s[i] == ' ' || s[i] == '\n'
    decreases |s|
  {
    if s == [] then []
    else if s[0] == '\n' then DeleteBreaks(s[1..])
    else if StartsWith(s, "  ") then
      assert NonBlank(s) == NonBlank(s[1..]) == NonBlank(s[1..][1..]);
      assert s[1..][1..] == s[2..];
      DeleteBreaks(s[2..])
    else
      var r := [s[0]] + DeleteBreaks(s[1..]);
      assert r[1..] == DeleteBreaks(s[1..]);
      r
  }

  /** Text without newlines or double spaces. */
  predicate Compact(s: string)
  {
    && (forall i :: 0 <= i < |s| ==> s[i] != '\n')
    && (forall i :: 0 <= i < |s| - 1 ==> !(s[i] == ' ' && s[i + 1] == ' '))
  }

  /** `DeleteBreaks` leaves compact text as it is. */
  lemma {:induction false} DeleteBreaksUnchanged(s: string)
    requires Compact(s)
    ensures DeleteBreaks(s) == s
    decreases |s|
  {
    if s != [] {
      assert !StartsWith(s, "  ") by {
        if |s| >= 2 {
          assert !(s[0] == ' ' && s[1] == ' ');
          assert s[..2][0] == s[0] && s[..2][1] == s[1];
        }
      }
      assert Compact(s[1..]) by {
        forall i | 0 <= i < |s[1..]| - 1
          ensures !(s[1..][i] == ' ' && s[1..][i + 1] == ' ')
        {
          assert s[1..][i] == s[i + 1] && s[1..][i + 1] == s[i + 2];
        }
      }
      DeleteBreaksUnchanged(s[1..]);
      assert [s[0]] + s[1..] == s;
    }
  }

  /** `n` spaces. */
  function Spaces(n: nat): (r: string)
    ensures |r| == n
    ensures forall i :: 0 <= i < n ==> r[i] == ' '
  {
    if n == 0 then "" else [' '] + Spaces(n - 1)
  }

  /** The length of the run of spaces `s` starts with. */
  function SpaceRun(s: string): (n: nat)
    ensures n <= |s|
    ensures forall i :: 0 <= i < n ==> s[i] == ' '
    ensures n < |s| ==> s[n] != ' '
    decreases |s|
  {
    if s != [] && s[0] == ' ' then 1 + SpaceRun(s[1..]) else 0
  }

  /**
   Reference reading of `/\n|  /g` replaced by nothing: newlines go, and each
   run of spaces between other letters keeps its length modulo 2. A newline
   splits a run, so `" \n "` keeps both of its spaces.
   */
  function HalvedRuns(s: string): string
    decreases |s|
  {
    if s == [] then []
    else if s[0] == '\n' then HalvedRuns(s[1..])
    else if s[0] == ' ' then Spaces(SpaceRun(s) % 2) + HalvedRuns(s[SpaceRun(s)..])
    else [s[0]] + HalvedRuns(s[1..])
  }

  /** A run of `n` spaces loses its pairs, so `n % 2` spaces remain. */
  lemma {:induction false} DeleteBreaksSpaces(n: nat, t: string)
    requires t == [] || t[0] != ' '
    ensures DeleteBreaks(Spaces(n) + t) == Spaces(n % 2) + DeleteBreaks(t)
    decreases n
  {
    var s := Spaces(n) + t;
    if n >= 2 {
      assert s[0] == ' ' && s[..2] == "  ";
      assert s[2..] == Spaces(n - 2) + t;
      DeleteBreaksSpaces(n - 2, t);
      calc {
        DeleteBreaks(s);
        DeleteBreaks(s[2..]);
        Spaces((n - 2) % 2) + DeleteBreaks(t);
        { assert n % 2 == (n - 2) % 2; }
        Spaces(n % 2) + DeleteBreaks(t);
      }
    } else if n == 1 {
      assert !StartsWith(s, "  ") by {
        if |s| >= 2 {
          assert s[1] == t[0];
          assert s[..2][1] == s[1];
        }
      }
      assert s[0] == ' ' && s[1..] == t;
      calc {
        DeleteBreaks(s);
        [' '] + DeleteBreaks(t);
        { assert Spaces(1) == [' ']; }
        Spaces(n % 2) + DeleteBreaks(t);
      }
    } else {
      assert Spaces(0) == "" && s == t;
    }
  }

  /** The scan `DeleteBreaks` agrees with the reference `HalvedRuns`. */
  lemma {:induction false} DeleteBreaksHalvesRuns(s: string)
    ensures DeleteBreaks(s) == HalvedRuns(s)
    decreases |s|
  {
    if s != [] {
      if s[0] == '\n' {
        DeleteBreaksHalvesRuns(s[1..]);
      } else if s[0] == ' ' {
        var n := SpaceRun(s);
        assert s == Spaces(n) + s[n..];
        DeleteBreaksSpaces(n, s[n..]);
        DeleteBreaksHalvesRuns(s[n..]);
      } else {
        assert !StartsWith(s, "  ") by {
          if |s| >= 2 {
            assert s[..2][0] == s[0];
          }
        }
        DeleteBreaksHalvesRuns(s[1..]);
      }
    }
  }

  /**
   `removeInsignificantWhitespace(value)`: trim, then delete newlines and
   double spaces. The first letter of the trimmed text is kept.
   */
  function RemoveInsignificantWhitespace(value: string): (r: string)
    ensures |r| <= |value|
    ensures forall i :: 0 <= i < |r| ==> r[i] != '\n'
    ensures NonBlank(r) == NonBlank(Trim(value))
    ensures r == [] <==> Trim(value) == []
    ensures r != [] ==> r[0] == Trim(value)[0]
    ensures Compact(Trim(value)) ==> r == Trim(value)
    ensures r == HalvedRuns(Trim(value))
  {
    var t := Trim(value);
    DeleteBreaksHalvesRuns(t);
    assert t != [] ==> t[0] != ' ' && t[0] != '\n';
    assert Compact(t) ==> DeleteBreaks(t) == t by {
      if Compact(t) {
        DeleteBreaksUnchanged(t);
      }
    }
    DeleteBreaks(t)
  }
}

=== FILE: json_parser.dfy ===
/**
 The JSON grammar of src/jsonParser.ts (`jsonTypes`) and its facade
 (`JsonParserCombinator.parse`).

 `ParseValue`, `ParseList`, `ParseObject` and `ParseKeyValuePair` call one
 another; each call is on a shorter text or, on the same text, on a parser of
 lower rank, which is what the `decreases` clauses say. The two `while` loops
 of the source are the recursive helpers `ListItems` and `ObjectPairs`.
 */
module JsonParser {
  import opened Wrappers
  import opened Text
  import opened Symbols
  import opened ParserCombinator
  import opened JsonTypes
  import opened JsonHelpers

  /** `invalidIndexKey`: "no such index" in the source's index scans. */
  const INVALID_INDEX: int := -1

  /** What `JsonParserCombinator.parse` gives back: the parsed value (or
      `null`), or an exception escaping it. */
  datatype ParseResult = Returned(value: Option<Json>) | Threw

  /* ---------------------------------------------------------------------- */
  /* Literals                                                                */
  /* ---------------------------------------------------------------------- */

  /** `jsonTypes.parseBool` */
  function ParseBool(value: string): (r: Parsed<Json>)
    ensures r.Parsed?
    ensures r.parsed == Some(Bool(true)) <==> StartsWith(value, JSON_TRUE)
    ensures r.parsed == Some(Bool(false)) <==> StartsWith(value, JSON_FALSE)
    ensures r.parsed.Some? ==> r.parsed.value.Bool?
    ensures r.parsed == Some(Bool(true)) ==> r.unparsed == value[|JSON_TRUE|..]
    ensures r.parsed == Some(Bool(false)) ==> r.unparsed == value[|JSON_FALSE|..]
    ensures r.parsed.None? ==> r.unparsed == value
  {
    var result := EitherStringParser([JSON_TRUE, JSON_FALSE], value);
    assert StartsWith(value, JSON_FALSE) ==> result.parsed == Some(JSON_FALSE) by {
      if StartsWith(value, JSON_FALSE) {
        assert value[0] == 'f';
        assert !OptionMatches([JSON_TRUE, JSON_FALSE][0], value);
        assert OptionMatches([JSON_TRUE, JSON_FALSE][1], value);
      }
    }
    ModifyParsed(result, (p: string) => if p == JSON_TRUE then Bool(true) else Bool(false))
  }

  /** `jsonTypes.parseNull` */
  function ParseNull(value: string): (r: Parsed<Json>)
    ensures r.Parsed?
    ensures r.parsed.Some? <==> StartsWith(value, JSON_NULL)
    ensures r.parsed.Some? ==> r.parsed.value == Null && JSON_NULL + r.unparsed == value
    ensures r.parsed.None? ==> r.unparsed == value
  {
    var result := MatchStringParser(JSON_NULL, value);
    ModifyParsed(result, (_: string) => Null)
  }

  /* ---------------------------------------------------------------------- */
  /* Strings                                                                 */
  /* ---------------------------------------------------------------------- */

  /** Letter k of `value` ends a string: a quote that is neither the first
      letter nor right after an escape character. */
  predicate IsClosingQuote(value: string, k: int)
  {
    1 <= k < |value| && [value[k]] == JSON_STRING_END && [value[k - 1]] != JSON_STRING_ESCAPE
  }

  /** The `reduce` of `parseString` from letter i on: the first closing
      quote, or `INVALID_INDEX`. */
  function ClosingQuoteFrom(value: string, i: nat): (k: int)
    ensures k == INVALID_INDEX || (i <= k < |value| && IsClosingQuote(value, k))
    ensures forall j :: i <= j < |value| && (k == INVALID_INDEX || j < k) ==> !IsClosingQuote(value, j)
    decreases |value| - i
  {
    if i >= |value| then INVALID_INDEX
    else if IsClosingQuote(value, i) then i
    else ClosingQuoteFrom(value, i + 1)
  }

  /**
   `jsonTypes.parseString`: the text between the first letter and the first
   closing quote, escape characters kept as they are. The source's test for an
   opening quote builds a failure and drops it, so the first letter is skipped
   whatever it is.
   */
  function ParseString(value: string): (r: Parsed<string>)
    ensures r.Parsed?
    ensures r.parsed.None? <==> forall k :: 0 <= k < |value| ==> !IsClosingQuote(value, k)
    ensures r.parsed.None? ==> r.unparsed == value
    ensures r.parsed.Some? ==>
              var k := |value| - |r.unparsed| - 1;
              && IsClosingQuote(value, k)
              && (forall j :: 0 <= j < k ==> !IsClosingQuote(value, j))
              && r.parsed.value == value[1..k]
              && r.unparsed == value[k + 1..]
  {
    var endIndex := ClosingQuoteFrom(value, 0);
    if endIndex == INVALID_INDEX then
      ParseFailed(value)
    else
      Parsed(Some(value[|JSON_STRING_START|..endIndex]), value[endIndex + 1..])
  }

  /** `parseString` as one of the alternatives of `parseValue`: the parsed
      text is the JSON string value. */
  function ParseStringValue(value: string): (r: Parsed<Json>)
    ensures r.Parsed?
    ensures r.unparsed == ParseString(value).unparsed
    ensures r.parsed.Some? <==> ParseString(value).parsed.Some?
    ensures r.parsed.Some? ==> r.parsed.value == Str(ParseString(value).parsed.value)
  {
    ModifyParsed(ParseString(value), (s: string) => Str(s))
  }

  /* ---------------------------------------------------------------------- */
  /* Numbers                                                                 */
  /* ---------------------------------------------------------------------- */

  /** `'0123456789.'.split('').includes(c)` */
  predicate IsLiteralCharacter(c: char)
  {
    ('0' <= c <= '9') || c == '.'
  }

  /** The end of the run of literal characters starting at i. */
  function LiteralEndFrom(value: string, i: nat): (k: nat)
    requires i <= |value|
    ensures i <= k <= |value|
    ensures forall j :: i <= j < k ==> IsLiteralCharacter(value[j])
    ensures k < |value| ==> !IsLiteralCharacter(value[k])
    decreases |value| - i
  {
    if i == |value| || !IsLiteralCharacter(value[i]) then i else LiteralEndFrom(value, i + 1)
  }

  /**
   `jsonTypes.parseNumber`: the longest prefix of digits and dots, read by
   `numericLiteralToNumber`. The source's second failure test (`literalEnd`
   equal to `invalidIndexKey`) can never hold, so it has no counterpart here.
   */
  function ParseNumber(value: string): (r: Parsed<Json>)
    ensures r.Parsed?
    ensures r.parsed.None? <==> value == [] || !IsLiteralCharacter(value[0])
    ensures r.parsed.None? ==> r.unparsed == value
    ensures r.parsed.Some? ==>
              var k := |value| - |r.unparsed|;
              && 1 <= k
              && r.unparsed == value[k..]
              && (forall j :: 0 <= j < k ==> IsLiteralCharacter(value[j]))
              && (k < |value| ==> !IsLiteralCharacter(value[k]))
              && r.parsed.value == Num(NumericLiteralToNumber(value[..k]))
  {
    if value == [] || !IsLiteralCharacter(value[0]) then
      ParseFailed(value)
    else
      var literalEnd := LiteralEndFrom(value, 0);
      Parsed(Some(Num(NumericLiteralToNumber(value[..literalEnd]))), value[literalEnd..])
  }

  /* ---------------------------------------------------------------------- */
  /* Lists, objects and values                                               */
  /* ---------------------------------------------------------------------- */

  /**
   `value.slice(1, end - 1)`: the text between an opening letter and the
   letter before `end`. JavaScript reads the end -1 as one before the length.
   */
  function Interior(value: string, end: nat): (r: string)
    ensures value != [] ==> |r| < |value|
    ensures 2 <= end <= |value| ==> r == value[1..end - 1]
    ensures end == 1 ==> r == ""
    ensures end == 0 && 2 <= |value| ==> r == value[1..|value| - 1]
    ensures end == 0 && |value| < 2 ==> r == ""
  {
    if end >= 1 then Slice(value, 1, end - 1)
    else if |value| >= 1 then Slice(value, 1, |value| - 1)
    else ""
  }

  /** The text between the brackets of a list literal. */
  function ListInterior(value: string): string
  {
    Interior(value, FindPairEnd(value, JSON_LIST_START, JSON_LIST_END))
  }

  /** The text between the braces of an object literal. */
  function ObjectInterior(value: string): string
  {
    Interior(value, FindPairEnd(value, JSON_OBJECT_START, JSON_OBJECT_END))
  }

  /** Every entry is a failure or a truthy value. */
  predicate AllEntries(items: seq<Option<Json>>)
  {
    forall i :: 0 <= i < |items| ==> IsEntry(items[i])
  }

  /** Every pair's value is a failure or a truthy value. */
  predicate AllPairEntries(pairs: seq<Pair>)
  {
    forall i :: 0 <= i < |pairs| ==> IsEntry(pairs[i].value)
  }

  /** Appending an entry keeps every element an entry. */
  lemma AllEntriesAppend(items: seq<Option<Json>>, e: Option<Json>)
    requires AllEntries(items) && IsEntry(e)
    ensures AllEntries(items + [e])
  {
    forall i | 0 <= i < |items| + 1
      ensures IsEntry((items + [e])[i])
    {
      if i < |items| {
        assert (items + [e])[i] == items[i];
      }
    }
  }

  /** Appending a pair whose value is an entry keeps every value an entry. */
  lemma AllPairEntriesAppend(pairs: seq<Pair>, p: Pair)
    requires AllPairEntries(pairs) && IsEntry(p.value)
    ensures AllPairEntries(pairs + [p])
  {
    forall i | 0 <= i < |pairs| + 1
      ensures IsEntry((pairs + [p])[i].value)
    {
      if i < |pairs| {
        assert (pairs + [p])[i] == pairs[i];
      }
    }
  }

  /**
   `jsonTypes.parseList`: finds the matching bracket, then parses the
   elements between. Its remainder is what follows the matching bracket.
   */
  function ParseList(value: string): (r: Parsed<Json>)
    ensures !StartsWith(value, JSON_LIST_START) ==> r == ParseFailed(value)
    ensures StartsWith(value, JSON_LIST_START) && r.Parsed? ==>
              && r.parsed.Some?
              && r.parsed.value.List?
              && r.unparsed == value[FindPairEnd(value, JSON_LIST_START, JSON_LIST_END)..]
              && (r.parsed.value.items == [] <==> ListInterior(value) == [])
              && AllEntries(r.parsed.value.items)
    ensures StartsWith(value, JSON_LIST_START) && ListInterior(value) == [] ==>
              r == Parsed(Some(List([])), value[FindPairEnd(value, JSON_LIST_START, JSON_LIST_END)..])
    ensures r.Parsed? ==> |r.unparsed| <= |value|
    decreases |value|, 1
  {
    if !StartsWith(value, JSON_LIST_START) then
      ParseFailed(value)
    else
      var listEnd := FindPairEnd(value, JSON_LIST_START, JSON_LIST_END);
      var listLiteral := Interior(value, listEnd);
      if listLiteral == "" then
        Parsed(Some(List([])), value[listEnd..])
      else
        var listVals := ListItems(listLiteral, []);
        ListItemsEntries(listLiteral, []);
        if listVals.Throw? then Throw
        else Parsed(Some(List(listVals.parsed.value)), value[listEnd..])
  }

  /**
   The elements of a list are those of its `while` loop over the text
   between the brackets, and the list throws exactly when that loop does.
   */
  lemma ParseListItems(value: string)
    requires StartsWith(value, JSON_LIST_START) && ListInterior(value) != []
    ensures var items := ListItems(ListInterior(value), []);
            && (ParseList(value).Throw? <==> items.Throw?)
            && (items.Parsed? ==>
                  ParseList(value) == Parsed(Some(List(items.parsed.value)), value[FindPairEnd(value, JSON_LIST_START, JSON_LIST_END)..]))
  {
  }

  /**
   A list throws exactly when there is text between its brackets and the
   loop over that text throws; an empty interior gives the empty list.
   */
  lemma ParseListThrows(value: string)
    ensures ParseList(value).Throw? <==>
              StartsWith(value, JSON_LIST_START) && ListInterior(value) != []
              && ListItems(ListInterior(value), []).Throw?
  {
    if StartsWith(value, JSON_LIST_START) && ListInterior(value) != [] {
      ParseListItems(value);
    }
  }

  /**
   The `while` loop of `parseList` from `current` on, with the elements
   `listVals` found so far. Every element is whatever `ParseValue` gives, a
   failure included; the loop stops after the first element not followed by a
   comma. The remainder reported is the text left at that point.
   */
  function ListItems(current: string, listVals: seq<Option<Json>>): (r: Parsed<seq<Option<Json>>>)
    ensures r.Parsed? ==> r.parsed.Some? && |r.parsed.value| > |listVals|
    ensures ParseValue(current).Throw? ==> r.Throw?
    decreases |current|, 4
  {
    var item := ParseValue(current);
    if item.Throw? then Throw
    else
      var vals := listVals + [item.parsed];
      if !StartsWith(item.unparsed, JSON_LIST_DELIMITER) then
        Parsed(Some(vals), item.unparsed)
      else
        var next := Trim(item.unparsed[1..]);
        assert |next| < |current|;
        ListItems(next, vals)
  }

  /** `ListItems` keeps the elements found before it, in order. */
  lemma {:induction false} ListItemsKeepsFound(current: string, listVals: seq<Option<Json>>)
    ensures ListItems(current, listVals).Parsed? ==> listVals <= ListItems(current, listVals).parsed.value
    decreases |current|
  {
    var item := ParseValue(current);
    if item.Parsed? && StartsWith(item.unparsed, JSON_LIST_DELIMITER) {
      var vals := listVals + [item.parsed];
      ListItemsKeepsFound(Trim(item.unparsed[1..]), vals);
      assert listVals <= vals;
    }
  }

  /** The first element `ListItems` adds is what `ParseValue` makes of the
      current text, and the loop stops there unless a comma follows. */
  lemma ListItemsFirst(current: string, listVals: seq<Option<Json>>)
    ensures var r := ListItems(current, listVals);
            r.Parsed? ==> |listVals| < |r.parsed.value| && r.parsed.value[|listVals|] == ParseValue(current).parsed
    ensures var item := ParseValue(current);
            item.Parsed? && !StartsWith(item.unparsed, JSON_LIST_DELIMITER) ==>
              ListItems(current, listVals) == Parsed(Some(listVals + [item.parsed]), item.unparsed)
  {
    var item := ParseValue(current);
    if item.Parsed? && StartsWith(item.unparsed, JSON_LIST_DELIMITER) {
      var vals := listVals + [item.parsed];
      ListItemsKeepsFound(Trim(item.unparsed[1..]), vals);
      assert vals[|listVals|] == item.parsed;
    }
  }

  /** Every element `ListItems` adds comes from `ParseValue`: a failure or a
      truthy value. */
  lemma {:induction false} ListItemsEntries(current: string, listVals: seq<Option<Json>>)
    requires AllEntries(listVals)
    ensures ListItems(current, listVals).Parsed? ==> AllEntries(ListItems(current, listVals).parsed.value)
    decreases |current|
  {
    var item := ParseValue(current);
    if item.Parsed? {
      var vals := listVals + [item.parsed];
      AllEntriesAppend(listVals, item.parsed);
      if StartsWith(item.unparsed, JSON_LIST_DELIMITER) {
        ListItemsEntries(Trim(item.unparsed[1..]), vals);
      }
    }
  }

  /** The outcomes of the alternatives that do not recurse: bool, null,
      number and string, in that order. */
  function ScalarAlternatives(value: string): (rs: seq<Parsed<Json>>)
    ensures |rs| == 4
    ensures WithinLength(rs, value)
    ensures !AnyThrow(rs)
  {
    var boolean, nothing, number, str := ParseBool(value), ParseNull(value), ParseNumber(value), ParseStringValue(value);
    ParsedWithinOfFour(boolean, nothing, number, str, value);
    [boolean, nothing, number, str]
  }

  /** The outcomes of the recursive alternatives: list, then object. */
  function CompositeAlternatives(value: string): (rs: seq<Parsed<Json>>)
    ensures |rs| == 2
    ensures WithinLength(rs, value)
    ensures AnyThrow(rs) <==> ParseList(value).Throw? || ParseObject(value).Throw?
    decreases |value|, 2
  {
    var list := ParseList(value);
    var obj := ParseObject(value);
    AnyThrowOfTwo(list, obj);
    WithinLengthOfTwo(list, obj, value);
    [list, obj]
  }

  /**
   `jsonTypes.parseValue`: every alternative is run on the same text, in the
   order list, object, bool, null, number, string, and the first truthy value
   wins (see `ParseValueIsFirstSuccessful`).
   */
  function ParseValue(value: string): (r: Parsed<Json>)
    ensures r.Parsed? ==> |r.unparsed| <= |value|
    ensures r.Parsed? && r.parsed.Some? ==> IsTruthy(r.parsed.value)
    ensures r.Parsed? && r.parsed.None? ==> r.unparsed == value
    ensures r.Throw? <==> ParseList(value).Throw? || ParseObject(value).Throw?
    decreases |value|, 3
  {
    var results := CompositeAlternatives(value) + ScalarAlternatives(value);
    AnyThrowConcat(CompositeAlternatives(value), ScalarAlternatives(value));
    FirstSuccessfulWithin(results, IsTruthy, value);
    FirstSuccessful(results, IsTruthy, value)
  }

  /** The key is a non-empty string directly followed by the colon. */
  predicate HasKeyAndColon(value: string)
  {
    var key := ParseString(value);
    key.parsed.Some? && key.parsed.value != "" && StartsWith(key.unparsed, JSON_KV_DELIMITER)
  }

  /**
   `jsonTypes.parseKeyValuePair`: a non-empty key string, the colon right
   after it, then a value parsed from the trimmed rest. A failed value still
   gives a pair, holding `None`.
   */
  function ParseKeyValuePair(value: string): (r: Parsed<Pair>)
    ensures (r.Parsed? && r.parsed.None?) <==> !HasKeyAndColon(value)
    ensures r.Parsed? && r.parsed.None? ==> r.unparsed == value
    ensures r.Parsed? && r.parsed.Some? ==>
              r.parsed.value.key == ParseString(value).parsed.value && IsEntry(r.parsed.value.value)
    ensures r.Parsed? ==> |r.unparsed| <= |value|
    decreases |value|, 2
  {
    var key := ParseString(value);
    if !(key.parsed.Some? && NonEmpty(key.parsed.value)) then
      ParseFailed(value)
    else if !StartsWith(key.unparsed, JSON_KV_DELIMITER) then
      ParseFailed(value)
    else
      var rawVal := Trim(key.unparsed[|JSON_KV_DELIMITER|..]);
      var val := ParseValue(rawVal);
      if val.Throw? then Throw
      else Parsed(Some(Pair(key.parsed.value, val.parsed)), val.unparsed)
  }

  /**
   The `while` loop of `parseObject` from `current` on, with the pairs found
   so far. A failed pair throws, since the source destructures its `null`
   value. The loop stops at an empty text or after a pair not followed by a
   comma.
   */
  function ObjectPairs(current: string, pairs: seq<Pair>): (r: Parsed<seq<Pair>>)
    ensures current == [] ==> r == Parsed(Some(pairs), "")
    ensures r.Parsed? ==> r.parsed.Some? && (current != [] ==> |r.parsed.value| > |pairs|)
    ensures var kv := ParseKeyValuePair(Trim(current));
            current != [] && (kv.Throw? || kv.parsed.None?) ==> r.Throw?
    decreases |current|, 4
  {
    if current == [] then
      Parsed(Some(pairs), "")
    else
      var kv := ParseKeyValuePair(Trim(current));
      if kv.Throw? || kv.parsed.None? then
        Throw
      else
        var found := pairs + [kv.parsed.value];
        if !StartsWith(kv.unparsed, JSON_OBJECT_DELIMITER) then
          Parsed(Some(found), kv.unparsed)
        else
          var next := Trim(kv.unparsed[1..]);
          assert |next| < |current|;
          ObjectPairs(next, found)
  }

  /** `ObjectPairs` keeps the pairs found before it, in order. */
  lemma {:induction false} ObjectPairsKeepsFound(current: string, pairs: seq<Pair>)
    ensures ObjectPairs(current, pairs).Parsed? ==> pairs <= ObjectPairs(current, pairs).parsed.value
    decreases |current|
  {
    if current != [] {
      var kv := ParseKeyValuePair(Trim(current));
      if kv.Parsed? && kv.parsed.Some? && StartsWith(kv.unparsed, JSON_OBJECT_DELIMITER) {
        var found := pairs + [kv.parsed.value];
        var next := Trim(kv.unparsed[1..]);
        assert |next| < |current|;
        ObjectPairsKeepsFound(next, found);
        assert pairs <= found;
      }
    }
  }

  /** The first pair `ObjectPairs` adds is what `ParseKeyValuePair` reads
      from the trimmed current text; a text without such a pair throws. */
  lemma ObjectPairsFirst(current: string, pairs: seq<Pair>)
    requires current != []
    ensures var kv := ParseKeyValuePair(Trim(current));
            var r := ObjectPairs(current, pairs);
            r.Parsed? ==>
              && kv.Parsed? && kv.parsed.Some?
              && |pairs| < |r.parsed.value| && r.parsed.value[|pairs|] == kv.parsed.value
  {
    var kv := ParseKeyValuePair(Trim(current));
    if kv.Parsed? && kv.parsed.Some? {
      var found := pairs + [kv.parsed.value];
      assert found[|pairs|] == kv.parsed.value;
      if StartsWith(kv.unparsed, JSON_OBJECT_DELIMITER) {
        var next := Trim(kv.unparsed[1..]);
        assert |next| < |current|;
        ObjectPairsKeepsFound(next, found);
      }
    }
  }

  /** A pair not followed by a comma is the last: the loop stops there and
      reports the text after it. */
  lemma ObjectPairsStops(current: string, pairs: seq<Pair>)
    requires current != []
    ensures var kv := ParseKeyValuePair(Trim(current));
            kv.Parsed? && kv.parsed.Some? && !StartsWith(kv.unparsed, JSON_OBJECT_DELIMITER) ==>
              ObjectPairs(current, pairs) == Parsed(Some(pairs + [kv.parsed.value]), kv.unparsed)
  {
  }

  /** Every pair `ObjectPairs` adds holds a failure or a truthy value. */
  lemma {:induction false} ObjectPairsEntries(current: string, pairs: seq<Pair>)
    requires AllPairEntries(pairs)
    ensures ObjectPairs(current, pairs).Parsed? ==> AllPairEntries(ObjectPairs(current, pairs).parsed.value)
    decreases |current|
  {
    if current != [] {
      var kv := ParseKeyValuePair(Trim(current));
      if kv.Parsed? && kv.parsed.Some? {
        var found := pairs + [kv.parsed.value];
        AllPairEntriesAppend(pairs, kv.parsed.value);
        if StartsWith(kv.unparsed, JSON_OBJECT_DELIMITER) {
          var next := Trim(kv.unparsed[1..]);
          assert |next| < |current|;
          ObjectPairsEntries(next, found);
        }
      }
    }
  }

  /** The object the pairs build when assigned in order: a later pair
      overwrites an earlier one with the same key. */
  function BuildObject(pairs: seq<Pair>): (m: map<string, Option<Json>>)
    ensures forall i :: 0 <= i < |pairs| ==> pairs[i].key in m
    ensures forall k :: k in m ==> exists i :: 0 <= i < |pairs| && pairs[i].key == k
  {
    if pairs == [] then map[]
    else
      var last := pairs[|pairs| - 1];
      BuildObject(pairs[..|pairs| - 1])[last.key := last.value]
  }

  /**
   `jsonTypes.parseObject`: strips the text first, then finds the matching
   brace and parses the pairs between. Failure leaves the stripped text, not
   the original. The loop of the source assigns each pair as it goes; building
   the object after the loop is the same, since an exception discards it.
   */
  function ParseObject(value: string): (r: Parsed<Json>)
    ensures var stripped := RemoveInsignificantWhitespace(value);
            !StartsWith(stripped, JSON_OBJECT_START) ==> r == ParseFailed(stripped)
    ensures var stripped := RemoveInsignificantWhitespace(value);
            StartsWith(stripped, JSON_OBJECT_START) && r.Parsed? ==>
              && r.parsed.Some?
              && r.parsed.value.Obj?
              && r.unparsed == stripped[FindPairEnd(stripped, JSON_OBJECT_START, JSON_OBJECT_END)..]
              && (forall k :: k in r.parsed.value.fields ==> IsEntry(r.parsed.value.fields[k]))
    ensures var stripped := RemoveInsignificantWhitespace(value);
            StartsWith(stripped, JSON_OBJECT_START) && ObjectInterior(stripped) == [] ==>
              r == Parsed(Some(Obj(map[])), stripped[FindPairEnd(stripped, JSON_OBJECT_START, JSON_OBJECT_END)..])
    ensures var stripped := RemoveInsignificantWhitespace(value);
            r.Throw? <==> StartsWith(stripped, JSON_OBJECT_START) && ObjectPairs(ObjectInterior(stripped), []).Throw?
    ensures r.Parsed? ==> |r.unparsed| <= |value|
    decreases |value|, 1
  {
    var stripped := RemoveInsignificantWhitespace(value);
    if !StartsWith(stripped, JSON_OBJECT_START) then
      ParseFailed(stripped)
    else
      var objectEnd := FindPairEnd(stripped, JSON_OBJECT_START, JSON_OBJECT_END);
      var pairs := ObjectPairs(Interior(stripped, objectEnd), []);
      ObjectPairsEntries(Interior(stripped, objectEnd), []);
      if pairs.Throw? then Throw
      else
        var fields := BuildObject(pairs.parsed.value);
        BuildObjectEntries(pairs.parsed.value);
        Parsed(Some(Obj(fields)), stripped[objectEnd..])
  }

  /**
   The fields of an object are those its pairs build, assigned in order, the
   pairs being what its `while` loop reads between the braces; the object
   throws exactly when that loop does.
   */
  lemma ParseObjectFields(value: string)
    requires StartsWith(RemoveInsignificantWhitespace(value), JSON_OBJECT_START)
    ensures var stripped := RemoveInsignificantWhitespace(value);
            var pairs := ObjectPairs(ObjectInterior(stripped), []);
            && (ParseObject(value).Throw? <==> pairs.Throw?)
            && (pairs.Parsed? ==>
                  ParseObject(value)
                  == Parsed(Some(Obj(BuildObject(pairs.parsed.value))), stripped[FindPairEnd(stripped, JSON_OBJECT_START, JSON_OBJECT_END)..]))
  {
  }

  /** Object values built from pairs of failures or truthy values are such. */
  lemma BuildObjectEntries(pairs: seq<Pair>)
    requires AllPairEntries(pairs)
    ensures forall k :: k in BuildObject(pairs) ==> IsEntry(BuildObject(pairs)[k])
  {
    if pairs != [] {
      BuildObjectEntries(pairs[..|pairs| - 1]);
    }
  }

  /* ---------------------------------------------------------------------- */
  /* Facade                                                                  */
  /* ---------------------------------------------------------------------- */

  /**
   `JsonParserCombinator.parse`: an object if the text is one, otherwise any
   value; the remainder is dropped.
   */
  function Parse(rawJson: string): (r: ParseResult)
    ensures r == Threw <==> ParseObject(rawJson).Throw? || ParseValue(rawJson).Throw?
    ensures r.Returned? && Succeeded(ParseObject(rawJson), IsTruthy) ==> r.value == ParseObject(rawJson).parsed
    ensures r.Returned? && !Succeeded(ParseObject(rawJson), IsTruthy) ==> r.value == ParseValue(rawJson).parsed
  {
    var asObject := ParseObject(rawJson);
    var asValue := ParseValue(rawJson);
    var result := FirstSuccessful([asObject, asValue], IsTruthy, rawJson);
    FirstSuccessfulOfTwo(asObject, asValue, IsTruthy, rawJson);
    if result.Throw? then Threw else Returned(result.parsed)
  }
}

=== FILE: json_properties.dfy ===
/**
 Properties of the JSON grammar that relate one of its operations to an
 independent description: the text a string literal encloses, the
 `firstSuccessfulParser` composition `parseValue` is written as, the object a
 list of assignments builds, and the bracket `findPairEnd` matches.
 */
module JsonProperties {
  import opened Wrappers
  import opened Text
  import opened Symbols
  import opened ParserCombinator
  import opened JsonTypes
  import opened JsonHelpers
  import opened JsonParser

  /* ---------------------------------------------------------------------- */
  /* parseString                                                             */
  /* ---------------------------------------------------------------------- */

  /** Every quote of `t` is escaped by the letter before it inside `t`, and
      `t` does not end with an escape character. */
  predicate QuoteFree(t: string)
  {
    && (forall j :: 0 <= j < |t| && [t[j]] == JSON_STRING_END ==> 0 < j && [t[j - 1]] == JSON_STRING_ESCAPE)
    && (t == [] || [t[|t| - 1]] != JSON_STRING_ESCAPE)
  }

  /**
   Round trip of `parseString`: a letter, a quote-free text `t` and a quote
   give back `t`, whatever follows. The first letter may be anything, the
   opening quote included, since it is never inspected.
   */
  lemma ParseStringRoundTrip(first: char, t: string, rest: string)
    requires QuoteFree(t)
    requires t == [] ==> [first] != JSON_STRING_ESCAPE
    ensures ParseString([first] + t + JSON_STRING_END + rest) == Parsed(Some(t), rest)
  {
    var value := [first] + t + JSON_STRING_END + rest;
    var close := |t| + 1;
    assert value[close] == '"';
    assert IsClosingQuote(value, close);
    forall j | 0 <= j < close
      ensures !IsClosingQuote(value, j)
    {
      if 1 <= j {
        assert value[j] == t[j - 1];
        if [t[j - 1]] == JSON_STRING_END {
          assert value[j - 1] == t[j - 2];
        }
      }
    }
    var r := ParseString(value);
    var k := |value| - |r.unparsed| - 1;
    assert !(k < close) && !(close < k);
    assert value[1..close] == t;
    assert value[close + 1..] == rest;
  }

  /* ---------------------------------------------------------------------- */
  /* parseNumber                                                             */
  /* ---------------------------------------------------------------------- */

  /** `parseNumber` reads exactly the whole run of digits and dots the text
      starts with, and leaves what follows it. */
  lemma ParseNumberReadsRun(digits: string, rest: string)
    requires digits != []
    requires forall j :: 0 <= j < |digits| ==> IsLiteralCharacter(digits[j])
    requires rest == [] || !IsLiteralCharacter(rest[0])
    ensures ParseNumber(digits + rest) == Parsed(Some(Num(NumericLiteralToNumber(digits))), rest)
  {
    var value := digits + rest;
    assert value[0] == digits[0];
    var r := ParseNumber(value);
    var k := |value| - |r.unparsed|;
    assert |digits| < |value| ==> value[|digits|] == rest[0];
    assert value[..k] == digits;
    assert value[k..] == rest;
  }

  /* ---------------------------------------------------------------------- */
  /* parseValue                                                              */
  /* ---------------------------------------------------------------------- */

  /** The six alternatives of `parseValue`, in the order it lists them. */
  function ValueParsers(): (ps: seq<Parser<Json>>)
    ensures |ps| == 6
  {
    [ParseList, ParseObject, ParseBool, ParseNull, ParseNumber, ParseStringValue]
  }

  /** `parseValue` is `firstSuccessfulParser` over its six alternatives with
      JavaScript truthiness. */
  lemma ParseValueIsFirstSuccessful(value: string)
    ensures ParseValue(value) == FirstSuccessfulParser(ValueParsers(), IsTruthy, value)
  {
    var parsers := ValueParsers();
    var results := CompositeAlternatives(value) + ScalarAlternatives(value);
    forall i | 0 <= i < 6
      ensures results[i] == parsers[i](value)
    {
      if i == 0 {
        assert results[i] == ParseList(value);
      } else if i == 1 {
        assert results[i] == ParseObject(value);
      } else if i == 2 {
        assert results[i] == ParseBool(value);
      } else if i == 3 {
        assert results[i] == ParseNull(value);
      } else if i == 4 {
        assert results[i] == ParseNumber(value);
      } else {
        assert results[i] == ParseStringValue(value);
      }
    }
    FirstSuccessfulParserOfOutcomes(parsers, results, IsTruthy, value);
  }

  /* ---------------------------------------------------------------------- */
  /* parseKeyValuePair                                                       */
  /* ---------------------------------------------------------------------- */

  /** The text a pair's value is read from: after the colon, trimmed. */
  function ValueText(value: string): string
    requires HasKeyAndColon(value)
  {
    Trim(ParseString(value).unparsed[|JSON_KV_DELIMITER|..])
  }

  /**
   Once key and colon are there, the pair throws exactly when its value does;
   otherwise it pairs the key with the value read from the trimmed text after
   the colon, a failed one included, and leaves what that read leaves: for a
   failed value, the whole trimmed value text.
   */
  lemma PairOfValue(value: string)
    requires HasKeyAndColon(value)
    ensures ParseKeyValuePair(value).Throw? <==> ParseValue(ValueText(value)).Throw?
    ensures var v := ParseValue(ValueText(value));
            v.Parsed? ==> ParseKeyValuePair(value) == Parsed(Some(Pair(ParseString(value).parsed.value, v.parsed)), v.unparsed)
    ensures var v := ParseValue(ValueText(value));
            v.Parsed? && v.parsed.None? ==>
              ParseKeyValuePair(value) == Parsed(Some(Pair(ParseString(value).parsed.value, None)), ValueText(value))
  {
    var key := ParseString(value);
    var v := ParseValue(ValueText(value));
    assert key.parsed.Some? && NonEmpty(key.parsed.value) && StartsWith(key.unparsed, JSON_KV_DELIMITER);
    assert ParseKeyValuePair(value)
           == if v.Throw? then Throw else Parsed(Some(Pair(key.parsed.value, v.parsed)), v.unparsed);
  }

  /* ---------------------------------------------------------------------- */
  /* parseObject                                                             */
  /* ---------------------------------------------------------------------- */

  /** A key keeps the value of its last pair: later assignments overwrite
      earlier ones. */
  lemma {:induction false} BuildObjectLastWins(pairs: seq<Pair>, i: nat)
    requires i < |pairs|
    requires forall j :: i < j < |pairs| ==> pairs[j].key != pairs[i].key
    ensures pairs[i].key in BuildObject(pairs)
    ensures BuildObject(pairs)[pairs[i].key] == pairs[i].value
    decreases |pairs|
  {
    if i < |pairs| - 1 {
      var front := pairs[..|pairs| - 1];
      assert front[i] == pairs[i];
      BuildObjectLastWins(front, i);
    }
  }

  /* ---------------------------------------------------------------------- */
  /* findPairEnd                                                             */
  /* ---------------------------------------------------------------------- */

  /** Text that opens, holds no bracket of either kind, then closes. */
  predicate FlatPair(value: string, open: char, close: char, inner: string, rest: string)
  {
    && open != close
    && open !in inner && close !in inner
    && value == [open] + inner + [close] + rest
  }

  /** Before the closing bracket of a flat pair, one open and no close have
      been counted. */
  lemma {:induction false} FlatPairCounts(value: string, open: char, close: char, inner: string, rest: string, k: nat)
    requires FlatPair(value, open, close, inner, rest)
    requires 1 <= k <= |inner| + 1
    ensures CountOf(value[..k], [open]) == 1
    ensures CountOf(value[..k], [close]) == 0
    decreases k
  {
    if k == 1 {
      assert value[..1][..0] == [];
      assert value[..1][0] == open;
    } else {
      FlatPairCounts(value, open, close, inner, rest, k - 1);
      assert value[..k][..k - 1] == value[..k - 1];
      assert value[..k][k - 1] == inner[k - 2];
    }
  }

  /** `findPairEnd` of a flat pair is just past its closing bracket. */
  lemma FindPairEndOfFlatPair(value: string, open: char, close: char, inner: string, rest: string)
    requires FlatPair(value, open, close, inner, rest)
    ensures FindPairEnd(value, [open], [close]) == |inner| + 2
  {
    var end := |inner| + 2;
    forall k | 1 <= k < end
      ensures !BalancedAt(value, [open], [close], k)
    {
      FlatPairCounts(value, open, close, inner, rest, k);
    }
    FlatPairCounts(value, open, close, inner, rest, end - 1);
    assert value[..end][..end - 1] == value[..end - 1];
    assert value[..end][end - 1] == close;
    assert BalancedAt(value, [open], [close], end);
  }

  /* ---------------------------------------------------------------------- */
  /* Keyword literals through parseValue and the facade                     */
  /* ---------------------------------------------------------------------- */

  /** A text that starts with neither a bracket nor a brace nor white space
      is neither a list nor an object: neither stripping nor trimming moves
      its first letter. */
  lemma NotComposite(value: string)
    requires value != [] && !IsWhitespace(value[0])
    requires [value[0]] != JSON_LIST_START && [value[0]] != JSON_OBJECT_START
    ensures ParseList(value) == ParseFailed(value)
    ensures ParseObject(value).Parsed? && ParseObject(value).parsed.None?
  {
    FirstLetterMismatch(value, JSON_LIST_START);
    TrimKeepsFirst(value);
    var stripped := RemoveInsignificantWhitespace(value);
    FirstLetterMismatch(stripped, JSON_OBJECT_START);
  }

  /** On such a text the list and object alternatives fail without an
      exception. */
  lemma CompositesFail(value: string)
    requires value != [] && !IsWhitespace(value[0])
    requires [value[0]] != JSON_LIST_START && [value[0]] != JSON_OBJECT_START
    ensures var cs := CompositeAlternatives(value);
            !AnyThrow(cs) && forall j :: 0 <= j < |cs| ==> !Succeeded(cs[j], IsTruthy)
  {
    NotComposite(value);
    var cs := CompositeAlternatives(value);
    assert cs[0] == ParseList(value) && cs[1] == ParseObject(value);
  }

  /**
   Alternatives that neither throw nor succeed, then alternatives that do not
   throw and fail up to the i-th, which succeeds with `expected`: nothing in
   the whole list throws and `expected` is the first success.
   */
  lemma SucceedsFirstAfter<T>(cs: seq<Parsed<T>>, ss: seq<Parsed<T>>, truthy: T -> bool, i: nat, expected: Parsed<T>)
    requires !AnyThrow(cs) && !AnyThrow(ss)
    requires i < |ss| && ss[i] == expected && Succeeded(expected, truthy)
    requires forall j :: 0 <= j < |cs| ==> !Succeeded(cs[j], truthy)
    requires forall j :: 0 <= j < i ==> !Succeeded(ss[j], truthy)
    ensures !AnyThrow(cs + ss)
    ensures IsFirstSuccess(cs + ss, truthy, |cs| + i)
    ensures (cs + ss)[|cs| + i] == expected
  {
    var results := cs + ss;
    AnyThrowConcat(cs, ss);
    forall j | 0 <= j < |cs| + i
      ensures !Succeeded(results[j], truthy)
    {
      if j < |cs| {
        assert results[j] == cs[j];
      } else {
        assert results[j] == ss[j - |cs|];
      }
    }
    assert results[|cs| + i] == ss[i];
  }

  /** With no exception and no truthy outcome, the choice fails and leaves
      the input. */
  lemma NoneSucceeds<T>(cs: seq<Parsed<T>>, ss: seq<Parsed<T>>, truthy: T -> bool, value: string)
    requires !AnyThrow(cs) && !AnyThrow(ss)
    requires forall j :: 0 <= j < |cs| ==> !Succeeded(cs[j], truthy)
    requires forall j :: 0 <= j < |ss| ==> !Succeeded(ss[j], truthy)
    ensures FirstSuccessful(cs + ss, truthy, value) == ParseFailed(value)
  {
    var results := cs + ss;
    AnyThrowConcat(cs, ss);
    forall j | 0 <= j < |results|
      ensures !Succeeded(results[j], truthy)
    {
      if j < |cs| {
        assert results[j] == cs[j];
      } else {
        assert results[j] == ss[j - |cs|];
      }
    }
    FirstSuccessfulIsFirst(results, truthy, value);
  }

  /** A truthy first outcome is chosen, when nothing throws. */
  lemma FirstOfFirst<T>(cs: seq<Parsed<T>>, ss: seq<Parsed<T>>, truthy: T -> bool, value: string)
    requires !AnyThrow(cs) && !AnyThrow(ss)
    requires cs != [] && Succeeded(cs[0], truthy)
    ensures FirstSuccessful(cs + ss, truthy, value) == cs[0]
  {
    AnyThrowConcat(cs, ss);
    assert (cs + ss)[0] == cs[0];
    assert IsFirstSuccess(cs + ss, truthy, 0);
    FirstSuccessfulIsFirst(cs + ss, truthy, value);
  }

  /** The keyword `true` or `false`. */
  function BoolLiteral(b: bool): string
  {
    if b then JSON_TRUE else JSON_FALSE
  }

  /** On a leading `true` or `false` the bool alternative succeeds, and the
      first letter is neither white space nor a bracket nor a brace. */
  lemma BoolLiteralScalars(value: string, b: bool)
    requires StartsWith(value, BoolLiteral(b))
    ensures value != [] && !IsWhitespace(value[0])
    ensures [value[0]] != JSON_LIST_START && [value[0]] != JSON_OBJECT_START
    ensures ScalarAlternatives(value)[0] == Parsed(Some(Bool(b)), value[|BoolLiteral(b)|..])
  {
    assert ScalarAlternatives(value)[0] == ParseBool(value);
    if b {
      assert value[0] == 't';
    } else {
      assert value[0] == 'f';
      assert !StartsWith(value, JSON_TRUE);
    }
  }

  /** On a leading `null` the bool alternative fails, the null alternative
      succeeds, and the first letter is neither white space nor a bracket nor
      a brace. */
  lemma NullLiteralScalars(value: string)
    requires StartsWith(value, JSON_NULL)
    ensures value != [] && !IsWhitespace(value[0])
    ensures [value[0]] != JSON_LIST_START && [value[0]] != JSON_OBJECT_START
    ensures var ss := ScalarAlternatives(value);
            && (forall j :: 0 <= j < 1 ==> !Succeeded(ss[j], IsTruthy))
            && ss[1] == Parsed(Some(Null), value[|JSON_NULL|..])
  {
    assert value[0] == 'n';
    assert !StartsWith(value, JSON_TRUE) && !StartsWith(value, JSON_FALSE);
    var ss := ScalarAlternatives(value);
    assert ss[0] == ParseBool(value) && ss[1] == ParseNull(value);
  }

  /** `parseValue` reads a leading `true` or `false`. */
  lemma ValueOfBoolLiteral(value: string, b: bool)
    requires StartsWith(value, BoolLiteral(b))
    ensures ParseValue(value) == Parsed(Some(Bool(b)), value[|BoolLiteral(b)|..])
  {
    var cs, ss := CompositeAlternatives(value), ScalarAlternatives(value);
    var expected := Parsed(Some(Bool(b)), value[|BoolLiteral(b)|..]);
    BoolLiteralScalars(value, b);
    CompositesFail(value);
    SucceedsFirstAfter(cs, ss, IsTruthy, 0, expected);
    FirstSuccessfulIsFirst(cs + ss, IsTruthy, value);
  }

  /** `parseValue` reads a leading `null`. */
  lemma ValueOfNullLiteral(value: string)
    requires StartsWith(value, JSON_NULL)
    ensures ParseValue(value) == Parsed(Some(Null), value[|JSON_NULL|..])
  {
    var cs, ss := CompositeAlternatives(value), ScalarAlternatives(value);
    NullLiteralScalars(value);
    CompositesFail(value);
    SucceedsFirstAfter(cs, ss, IsTruthy, 1, Parsed(Some(Null), value[|JSON_NULL|..]));
    FirstSuccessfulIsFirst(cs + ss, IsTruthy, value);
  }

  /**
   'True Literal' and 'False Literal' of src/tests.ts, for any text after the
   keyword: the object parser fails, the value parser reads the keyword, and
   the rest of the text is dropped.
   */
  lemma ParseOfBoolLiteral(value: string, b: bool)
    requires StartsWith(value, BoolLiteral(b))
    ensures Parse(value) == Returned(Some(Bool(b)))
  {
    BoolLiteralScalars(value, b);
    NotComposite(value);
    ValueOfBoolLiteral(value, b);
  }

  /** Stripping keeps a leading brace. */
  lemma StrippedKeepsBrace(value: string)
    requires value != [] && [value[0]] == JSON_OBJECT_START
    ensures StartsWith(RemoveInsignificantWhitespace(value), JSON_OBJECT_START)
  {
    TrimKeepsFirst(value);
    var stripped := RemoveInsignificantWhitespace(value);
    assert stripped[..1] == [stripped[0]];
  }

  /** On a leading brace the object parser throws or gives an object, which
      is truthy. */
  lemma ObjectOrThrow(value: string)
    requires value != [] && [value[0]] == JSON_OBJECT_START
    ensures ParseObject(value).Throw? || Succeeded(ParseObject(value), IsTruthy)
  {
    StrippedKeepsBrace(value);
  }

  /** A text that starts with a brace parses, through the facade, as the
      object `parseObject` reads, or throws when that parser does. */
  lemma ParseOfObject(value: string)
    requires value != [] && [value[0]] == JSON_OBJECT_START
    ensures Parse(value) == if ParseObject(value).Throw? then Threw else Returned(ParseObject(value).parsed)
  {
    ObjectOrThrow(value);
    FirstLetterMismatch(value, JSON_LIST_START);
  }

  /** A leading digit or dot is neither white space nor a bracket nor a
      brace, and no keyword starts with it. */
  lemma NumberFirstLetter(value: string)
    requires value != [] && IsLiteralCharacter(value[0])
    ensures !IsWhitespace(value[0])
    ensures [value[0]] != JSON_LIST_START && [value[0]] != JSON_OBJECT_START
    ensures !StartsWith(value, JSON_TRUE) && !StartsWith(value, JSON_FALSE) && !StartsWith(value, JSON_NULL)
  {
    FirstLetterMismatch(value, JSON_TRUE);
    FirstLetterMismatch(value, JSON_FALSE);
    FirstLetterMismatch(value, JSON_NULL);
  }

  /** On a leading digit or dot the bool and null alternatives fail. */
  lemma NumberScalars(value: string)
    requires !StartsWith(value, JSON_TRUE) && !StartsWith(value, JSON_FALSE) && !StartsWith(value, JSON_NULL)
    ensures var ss := ScalarAlternatives(value);
            && (forall j :: 0 <= j < 2 ==> !Succeeded(ss[j], IsTruthy))
            && ss[2] == ParseNumber(value)
  {
    var ss := ScalarAlternatives(value);
    assert ss[0] == ParseBool(value) && ss[1] == ParseNull(value) && ss[2] == ParseNumber(value);
  }

  /** `parseValue` of a text starting with a digit or a dot is the number
      `parseNumber` reads, as long as that number is not zero. */
  lemma ValueOfNumber(value: string)
    requires value != [] && IsLiteralCharacter(value[0])
    requires Succeeded(ParseNumber(value), IsTruthy)
    ensures ParseValue(value) == ParseNumber(value)
  {
    var cs, ss := CompositeAlternatives(value), ScalarAlternatives(value);
    NumberFirstLetter(value);
    NumberScalars(value);
    CompositesFail(value);
    SucceedsFirstAfter(cs, ss, IsTruthy, 2, ParseNumber(value));
    FirstSuccessfulIsFirst(cs + ss, IsTruthy, value);
  }

  /** `parseValue` of a text starting with a digit or a dot fails, leaving
      the input, when the number read there is 0 and the string alternative
      gives nothing truthy: a zero is passed over, not returned. */
  lemma ValueOfFalsyNumber(value: string)
    requires value != [] && IsLiteralCharacter(value[0])
    requires !Succeeded(ParseNumber(value), IsTruthy)
    requires !Succeeded(ParseStringValue(value), IsTruthy)
    ensures ParseValue(value) == ParseFailed(value)
  {
    var cs, ss := CompositeAlternatives(value), ScalarAlternatives(value);
    NumberFirstLetter(value);
    NumberScalars(value);
    CompositesFail(value);
    assert forall j :: 0 <= j < |ss| ==> !Succeeded(ss[j], IsTruthy) by {
      assert ss[3] == ParseStringValue(value);
      forall j | 0 <= j < |ss|
        ensures !Succeeded(ss[j], IsTruthy)
      {
        if j >= 2 {
          assert j == 2 || j == 3;
        }
      }
    }
    NoneSucceeds(cs, ss, IsTruthy, value);
  }

  /** On a leading bracket the object alternative fails without an
      exception. */
  lemma ListIsNoObject(value: string)
    requires value != [] && [value[0]] == JSON_LIST_START
    ensures ParseObject(value).Parsed? && ParseObject(value).parsed.None?
  {
    TrimKeepsFirst(value);
    FirstLetterMismatch(RemoveInsignificantWhitespace(value), JSON_OBJECT_START);
  }

  /** On a text that parses as a list, the list alternative succeeds and
      neither composite alternative throws. */
  lemma ListAlternativeSucceeds(value: string)
    requires value != [] && [value[0]] == JSON_LIST_START
    requires ParseList(value).Parsed?
    ensures var cs := CompositeAlternatives(value);
            !AnyThrow(cs) && cs != [] && cs[0] == ParseList(value) && Succeeded(cs[0], IsTruthy)
  {
    ListIsNoObject(value);
    assert value[..1] == JSON_LIST_START;
  }

  /** A list is the first alternative of `parseValue`: a text that parses as
      a list is read as that list. */
  lemma ValueOfList(value: string)
    requires value != [] && [value[0]] == JSON_LIST_START
    requires ParseList(value).Parsed?
    ensures ParseValue(value) == ParseList(value)
  {
    ListAlternativeSucceeds(value);
    FirstOfFirst(CompositeAlternatives(value), ScalarAlternatives(value), IsTruthy, value);
  }

  /** A text that starts with a bracket and parses as a list is, through the
      facade, that list; whatever follows it is dropped. */
  lemma ParseOfList(value: string)
    requires value != [] && [value[0]] == JSON_LIST_START
    requires ParseList(value).Parsed?
    ensures Parse(value) == Returned(ParseList(value).parsed)
  {
    ListIsNoObject(value);
    ValueOfList(value);
  }

  /** 'Null Literal' of src/tests.ts, for any text after the keyword. */
  lemma ParseOfNullLiteral(value: string)
    requires StartsWith(value, JSON_NULL)
    ensures Parse(value) == Returned(Some(Null))
  {
    NullLiteralScalars(value);
    NotComposite(value);
    ValueOfNullLiteral(value);
  }
}

=== FILE: json_types.dfy ===
/**
 The values of src/types.ts as one closed datatype.

 A list entry or an object value that failed to parse is kept by the source
 as a JavaScript `null`; that is `None` here, distinct from `Some(Null)`, the
 JSON `null` literal.
 */
module JsonTypes {
  import opened Wrappers

  datatype Json =
    | Null
    | Bool(b: bool)
    | Num(n: real)
    | Str(s: string)
    | List(items: seq<Option<Json>>)
    | Obj(fields: map<string, Option<Json>>)

  /** `JsonKeyValuePair`: a key and the (possibly failed) value after its colon. */
  datatype Pair = Pair(key: string, value: Option<Json>)

  /**
   JavaScript truthiness of a parsed value. The null and boolean values are
   non-empty enum strings in the source, so even `Bool(false)` is truthy; only
   the number 0 and the empty string are falsy.
   */
  predicate IsTruthy(j: Json): (t: bool)
    ensures !t <==> j == Num(0.0) || j == Str("")
  {
    match j
    case Num(n) => n != 0.0
    case Str(s) => s != ""
    case _ => true
  }

  /** A list entry or object value: failed, or a truthy value. */
  predicate IsEntry(e: Option<Json>)
  {
    e.None? || IsTruthy(e.value)
  }
}

=== FILE: parser_combinator.dfy ===
/**
 The combinator library of src/parserCombinator.ts.

 A parser maps the text still to be read to a `Parsed` outcome: a value (or
 `None`, the source's `null`) together with the unparsed rest. The third
 outcome `Throw` stands for a JavaScript exception escaping the parser; it is
 absorbing, every combinator passes it on.

 The source's parser builders are curried (`matchStringParser(l)(v)`); here
 each is modelled applied to its input (`MatchStringParser(l, v)`). Values are
 untyped in the source, and some combinators test them for JavaScript
 truthiness; those take the truthiness of their value type as a parameter.
 */
module ParserCombinator {
  import opened Wrappers
  import opened Text

  datatype Parsed<T> = Parsed(parsed: Option<T>, unparsed: string) | Throw

  type Parser<T> = string -> Parsed<T>

  /** The outcome counts as a success in a truthiness test (`!!result.parsed`). */
  predicate Succeeded<T>(r: Parsed<T>, truthy: T -> bool)
  {
    r.Parsed? && r.parsed.Some? && truthy(r.parsed.value)
  }

  /** Truthiness of a JavaScript string. */
  predicate NonEmpty(s: string)
  {
    s != ""
  }

  /** The parser, whenever it yields a value, consumes at least one character. */
  ghost predicate ShortensOnSuccess<T>(parser: Parser<T>)
  {
    forall s :: parser(s).Parsed? && parser(s).parsed.Some? ==> |parser(s).unparsed| < |s|
  }

  /** The parser, whenever it yields a value, never leaves more text than it got. */
  ghost predicate NeverLengthens<T>(parser: Parser<T>)
  {
    forall s :: parser(s).Parsed? && parser(s).parsed.Some? ==> |parser(s).unparsed| <= |s|
  }

  /** `parseFailed`: no value, and the whole input left unparsed. */
  function ParseFailed<T>(value: string): (r: Parsed<T>)
    ensures r.Parsed? && r.parsed.None? && r.unparsed == value
  {
    Parsed(None, value)
  }

  /** `modifyParsed`: maps a present value, keeps the rest as it is. */
  function ModifyParsed<T, U>(result: Parsed<T>, modifier: T -> U): (r: Parsed<U>)
    ensures r.Throw? <==> result.Throw?
    ensures r.Parsed? ==> r.unparsed == result.unparsed
    ensures r.Parsed? ==> (r.parsed.Some? <==> result.parsed.Some?)
    ensures r.Parsed? && r.parsed.Some? ==> r.parsed.value == modifier(result.parsed.value)
  {
    match result
    case Throw => Throw
    case Parsed(None, rest) => Parsed(None, rest)
    case Parsed(Some(v), rest) => Parsed(Some(modifier(v)), rest)
  }

  /** Mapping the identity changes nothing. */
  lemma ModifyParsedIdentity<T>(result: Parsed<T>)
    ensures ModifyParsed(result, (v: T) => v) == result
  {
  }

  /** Two successive maps are one map by the composed function. */
  lemma ModifyParsedCompose<T, U, V>(result: Parsed<T>, f: T -> U, g: U -> V)
    ensures ModifyParsed(ModifyParsed(result, f), g) == ModifyParsed(result, (v: T) => g(f(v)))
  {
  }

  /** `matchStringParser(lookfor)(value)` */
  function MatchStringParser(lookfor: string, value: string): (r: Parsed<string>)
    ensures r.Parsed?
    ensures r.parsed.Some? <==> StartsWith(value, lookfor)
    ensures r.parsed.Some? ==> r.parsed.value == lookfor && r.parsed.value + r.unparsed == value
    ensures r.parsed.None? ==> r.unparsed == value
  {
    if StartsWith(value, lookfor) then
      Parsed(Some(value[..|lookfor|]), value[|lookfor|..])
    else
      ParseFailed(value)
  }

  /** Some outcome is a thrown exception. */
  predicate AnyThrow<T>(results: seq<Parsed<T>>)
  {
    exists i :: 0 <= i < |results| && results[i].Throw?
  }

  /** An exception among two lists of outcomes is in one of them. */
  lemma AnyThrowConcat<T>(a: seq<Parsed<T>>, b: seq<Parsed<T>>)
    ensures AnyThrow(a + b) <==> AnyThrow(a) || AnyThrow(b)
  {
    if AnyThrow(a) {
      var i :| 0 <= i < |a| && a[i].Throw?;
      assert (a + b)[i] == a[i];
    }
    if AnyThrow(b) {
      var i :| 0 <= i < |b| && b[i].Throw?;
      assert (a + b)[|a| + i] == b[i];
    }
    if AnyThrow(a + b) {
      var i :| 0 <= i < |a + b| && (a + b)[i].Throw?;
      if i < |a| {
        assert a[i] == (a + b)[i];
      } else {
        assert b[i - |a|] == (a + b)[i];
      }
    }
  }

  /** Two outcomes hold an exception exactly when one of them is one. */
  lemma AnyThrowOfTwo<T>(a: Parsed<T>, b: Parsed<T>)
    ensures AnyThrow([a, b]) <==> a.Throw? || b.Throw?
  {
    assert [a, b][0] == a && [a, b][1] == b;
  }

  /** The first outcome that counts as a success, if any. */
  predicate IsFirstSuccess<T>(results: seq<Parsed<T>>, truthy: T -> bool, i: int)
  {
    && 0 <= i < |results|
    && Succeeded(results[i], truthy)
    && forall j :: 0 <= j < i ==> !Succeeded(results[j], truthy)
  }

  /** `results.find((result) => truthy(result.parsed)) ?? parseFailed(value)` */
  function Find<T>(results: seq<Parsed<T>>, truthy: T -> bool, value: string): (r: Parsed<T>)
    ensures r.Parsed?
    ensures r.parsed.Some? ==> r in results && Succeeded(r, truthy)
    ensures r.parsed.None? ==> r.unparsed == value && forall i :: 0 <= i < |results| ==> !Succeeded(results[i], truthy)
  {
    if |results| == 0 then
      ParseFailed(value)
    else if Succeeded(results[0], truthy) then
      results[0]
    else
      var r := Find(results[1..], truthy, value);
      assert forall i :: 1 <= i < |results| ==> results[i] == results[1..][i - 1];
      r
  }

  /** `Find` picks the first success. */
  lemma {:induction false} FindIsFirst<T>(results: seq<Parsed<T>>, truthy: T -> bool, value: string)
    ensures Find(results, truthy, value).parsed.Some? ==>
              exists i :: IsFirstSuccess(results, truthy, i) && Find(results, truthy, value) == results[i]
  {
    if |results| > 0 && !Succeeded(results[0], truthy) {
      FindIsFirst(results[1..], truthy, value);
      var r := Find(results[1..], truthy, value);
      if r.parsed.Some? {
        var i :| IsFirstSuccess(results[1..], truthy, i) && r == results[1..][i];
        assert IsFirstSuccess(results, truthy, i + 1);
      }
    } else if |results| > 0 {
      assert IsFirstSuccess(results, truthy, 0);
    }
  }

  /**
   The selection step of `firstSuccessfulParser`: every alternative has
   already been run on the same input (the source maps over all of them before
   searching), so an exception in any of them escapes; otherwise the first
   truthy value wins, and with none the whole input is left unparsed.
   */
  function FirstSuccessful<T>(results: seq<Parsed<T>>, truthy: T -> bool, value: string): (r: Parsed<T>)
    ensures r.Throw? <==> AnyThrow(results)
    ensures r.Parsed? && r.parsed.Some? ==> r in results && Succeeded(r, truthy)
    ensures r.Parsed? && r.parsed.None? ==>
              r.unparsed == value && forall i :: 0 <= i < |results| ==> !Succeeded(results[i], truthy)
  {
    if AnyThrow(results) then Throw else Find(results, truthy, value)
  }

  /** Without an exception, `FirstSuccessful` gives the first success, or a
      failure leaving the input when there is none. */
  lemma FirstSuccessfulIsFirst<T>(results: seq<Parsed<T>>, truthy: T -> bool, value: string)
    requires !AnyThrow(results)
    ensures forall i :: IsFirstSuccess(results, truthy, i) ==> FirstSuccessful(results, truthy, value) == results[i]
    ensures (forall i :: 0 <= i < |results| ==> !Succeeded(results[i], truthy)) ==>
              FirstSuccessful(results, truthy, value) == ParseFailed(value)
  {
    FindIsFirst(results, truthy, value);
    forall i | IsFirstSuccess(results, truthy, i)
      ensures FirstSuccessful(results, truthy, value) == results[i]
    {
      var j :| IsFirstSuccess(results, truthy, j) && Find(results, truthy, value) == results[j];
      assert !(i < j) && !(j < i);
    }
  }

  /** No outcome leaves more text than `value`. */
  predicate WithinLength<T>(results: seq<Parsed<T>>, value: string)
  {
    forall i :: 0 <= i < |results| && results[i].Parsed? ==> |results[i].unparsed| <= |value|
  }

  /** Two outcomes are within the input when each is. */
  lemma WithinLengthOfTwo<T>(a: Parsed<T>, b: Parsed<T>, value: string)
    requires a.Parsed? ==> |a.unparsed| <= |value|
    requires b.Parsed? ==> |b.unparsed| <= |value|
    ensures WithinLength([a, b], value)
  {
    assert [a, b][0] == a && [a, b][1] == b;
  }

  /** Four outcomes that are all parsed within the input: none throws. */
  lemma ParsedWithinOfFour<T>(a: Parsed<T>, b: Parsed<T>, c: Parsed<T>, d: Parsed<T>, value: string)
    requires a.Parsed? && |a.unparsed| <= |value|
    requires b.Parsed? && |b.unparsed| <= |value|
    requires c.Parsed? && |c.unparsed| <= |value|
    requires d.Parsed? && |d.unparsed| <= |value|
    ensures !AnyThrow([a, b, c, d]) && WithinLength([a, b, c, d], value)
  {
    var rs := [a, b, c, d];
    assert rs[0] == a && rs[1] == b && rs[2] == c && rs[3] == d;
  }

  /** The choice of `FirstSuccessful` leaves no more text than its alternatives. */
  lemma FirstSuccessfulWithin<T>(results: seq<Parsed<T>>, truthy: T -> bool, value: string)
    requires WithinLength(results, value)
    ensures FirstSuccessful(results, truthy, value).Parsed? ==> |FirstSuccessful(results, truthy, value).unparsed| <= |value|
  {
  }

  /** `FirstSuccessful` over two alternatives, spelled out. */
  lemma FirstSuccessfulOfTwo<T>(a: Parsed<T>, b: Parsed<T>, truthy: T -> bool, value: string)
    ensures FirstSuccessful([a, b], truthy, value)
            == if a.Throw? || b.Throw? then Throw
               else if Succeeded(a, truthy) then a
               else if Succeeded(b, truthy) then b
               else ParseFailed(value)
  {
    var results := [a, b];
    assert results[0] == a && results[1] == b;
    if !AnyThrow(results) {
      FirstSuccessfulIsFirst(results, truthy, value);
      if Succeeded(a, truthy) {
        assert IsFirstSuccess(results, truthy, 0);
      } else if Succeeded(b, truthy) {
        assert IsFirstSuccess(results, truthy, 1);
      }
    } else {
      var i :| 0 <= i < 2 && results[i].Throw?;
      assert i == 0 || i == 1;
    }
  }

  /** Runs every parser on the same input. */
  function RunAll<T>(parsers: seq<Parser<T>>, value: string): (results: seq<Parsed<T>>)
    ensures |results| == |parsers|
    ensures forall i :: 0 <= i < |parsers| ==> results[i] == parsers[i](value)
  {
    seq(|parsers|, i requires 0 <= i < |parsers| => parsers[i](value))
  }

  /** `firstSuccessfulParser(...parsers)(value)` */
  function FirstSuccessfulParser<T>(parsers: seq<Parser<T>>, truthy: T -> bool, value: string): (r: Parsed<T>)
    ensures r.Throw? <==> exists i :: 0 <= i < |parsers| && parsers[i](value).Throw?
    ensures r.Parsed? ==>
              forall i :: IsFirstSuccess(RunAll(parsers, value), truthy, i) ==> r == parsers[i](value)
    ensures r.Parsed? ==>
              (r.parsed.Some? <==> exists i :: 0 <= i < |parsers| && Succeeded(parsers[i](value), truthy))
    ensures r.Parsed? && r.parsed.None? ==> r.unparsed == value
  {
    var results := RunAll(parsers, value);
    var r := FirstSuccessful(results, truthy, value);
    assert r.Parsed? ==> forall i :: IsFirstSuccess(results, truthy, i) ==> r == results[i] by {
      if !AnyThrow(results) {
        FirstSuccessfulIsFirst(results, truthy, value);
      }
    }
    r
  }

  /** `firstSuccessfulParser` is the selection step applied to the outcomes
      of its parsers on the same text. */
  lemma FirstSuccessfulParserOfOutcomes<T>(parsers: seq<Parser<T>>, results: seq<Parsed<T>>, truthy: T -> bool, value: string)
    requires |results| == |parsers|
    requires forall i :: 0 <= i < |parsers| ==> results[i] == parsers[i](value)
    ensures FirstSuccessfulParser(parsers, truthy, value) == FirstSuccessful(results, truthy, value)
  {
    assert RunAll(parsers, value) == results;
  }

  /** The option matched in `value` with a truthy (non-empty) result. */
  predicate OptionMatches(option: string, value: string)
  {
    option != "" && StartsWith(value, option)
  }

  /** `options.map((option) => matchStringParser(option)(value))` */
  function MatchAll(options: seq<string>, value: string): (results: seq<Parsed<string>>)
    ensures |results| == |options|
    ensures forall i :: 0 <= i < |options| ==> results[i] == MatchStringParser(options[i], value)
  {
    seq(|options|, i requires 0 <= i < |options| => MatchStringParser(options[i], value))
  }

  /** The first non-empty match among the options is the first option that
      `value` starts with. */
  lemma FindFirstOption(options: seq<string>, value: string)
    ensures var found := Find(MatchAll(options, value), NonEmpty, value);
            && (found.parsed.Some? <==> exists i :: 0 <= i < |options| && OptionMatches(options[i], value))
            && (forall i :: 0 <= i < |options| && OptionMatches(options[i], value)
                            && (forall j :: 0 <= j < i ==> !OptionMatches(options[j], value))
                            ==> found.parsed == Some(options[i]))
            && (found.parsed.Some? ==> found.parsed.value in options && OptionMatches(found.parsed.value, value)
                                       && found.parsed.value + found.unparsed == value)
  {
    var results := MatchAll(options, value);
    assert forall i :: 0 <= i < |options| ==> (Succeeded(results[i], NonEmpty) <==> OptionMatches(options[i], value));
    var found := Find(results, NonEmpty, value);
    FindIsFirst(results, NonEmpty, value);
    forall i | 0 <= i < |options| && OptionMatches(options[i], value)
                && (forall j :: 0 <= j < i ==> !OptionMatches(options[j], value))
      ensures found.parsed == Some(options[i])
    {
      assert IsFirstSuccess(results, NonEmpty, i);
      var k :| IsFirstSuccess(results, NonEmpty, k) && found == results[k];
      assert !(i < k) && !(k < i);
    }
  }

  /**
   `eitherStringParser(...options)(value)`: the first listed option that
   `value` starts with, even when a later one is longer; an empty option
   matches everywhere but yields a falsy value and is passed over.
   */
  function EitherStringParser(options: seq<string>, value: string): (r: Parsed<string>)
    ensures r.Parsed?
    ensures r.parsed.Some? <==> exists i :: 0 <= i < |options| && OptionMatches(options[i], value)
    ensures forall i :: 0 <= i < |options| && OptionMatches(options[i], value)
                        && (forall j :: 0 <= j < i ==> !OptionMatches(options[j], value))
                        ==> r.parsed == Some(options[i])
    ensures r.parsed.Some? ==> r.parsed.value in options && OptionMatches(r.parsed.value, value)
    ensures r.parsed.Some? ==> r.parsed.value + r.unparsed == value
    ensures r.parsed.None? ==> r.unparsed == value
  {
    var found := Find(MatchAll(options, value), NonEmpty, value);
    FindFirstOption(options, value);
    if found.parsed.Some? then found else ParseFailed(value)
  }

  /**
   `parseRecursively(value, parser, data)`: applies `parser` to its own
   remainders, appending every non-null value to `data`, until a null value.
   It never fails, and it reports an empty remainder, so the text at the
   stopping point is lost. The requires is what makes the recursion finite.
   */
  function ParseRecursively<T>(value: string, parser: Parser<T>, data: seq<T>): (r: Parsed<seq<T>>)
    requires ShortensOnSuccess(parser)
    ensures r.Parsed? ==> r.parsed.Some? && r.unparsed == "" && data <= r.parsed.value
    ensures r.Throw? <==> Elements(parser, value).None?
    decreases |value|
  {
    var result := parser(value);
    match result
    case Throw => Throw
    case Parsed(None, _) => Parsed(Some(data), "")
    case Parsed(Some(v), rest) => ParseRecursively(rest, parser, data + [v])
  }

  /**
   Reference for `ParseRecursively`: the values of successive applications of
   `parser`, each to the previous remainder, up to the first null value;
   `None` when an application throws.
   */
  function Elements<T>(parser: Parser<T>, value: string): Option<seq<T>>
    requires ShortensOnSuccess(parser)
    decreases |value|
  {
    match parser(value)
    case Throw => None
    case Parsed(None, _) => Some([])
    case Parsed(Some(v), rest) =>
      match Elements(parser, rest)
      case None => None
      case Some(vs) => Some([v] + vs)
  }

  /** The value of `ParseRecursively` is `data` followed by `Elements`. */
  lemma {:induction false} ParseRecursivelyIsElements<T>(value: string, parser: Parser<T>, data: seq<T>)
    requires ShortensOnSuccess(parser)
    ensures Elements(parser, value).Some? ==>
              ParseRecursively(value, parser, data) == Parsed(Some(data + Elements(parser, value).value), "")
    decreases |value|
  {
    match parser(value)
    case Throw =>
    case Parsed(None, _) =>
      assert data + [] == data;
    case Parsed(Some(v), rest) =>
      ParseRecursivelyIsElements(rest, parser, data + [v]);
      if Elements(parser, rest).Some? {
        assert data + [v] + Elements(parser, rest).value == data + ([v] + Elements(parser, rest).value);
      }
  }

  /**
   The step of `delimitedParser` between elements (`parseDelimitedChunk`):
   the delimiter must come first, then the element is parsed from the trimmed
   remainder. An empty delimiter matches with a falsy value, so it stops.
   */
  function DelimitedChunk<T>(delimiter: string, parser: Parser<T>, chunk: string): (r: Parsed<T>)
    ensures !StartsWith(chunk, delimiter) || delimiter == "" ==> r == ParseFailed(chunk)
    ensures StartsWith(chunk, delimiter) && delimiter != "" ==> r == parser(Trim(chunk[|delimiter|..]))
  {
    var found := MatchStringParser(delimiter, chunk);
    if !(found.parsed.Some? && NonEmpty(found.parsed.value)) then
      ParseFailed(chunk)
    else
      parser(Trim(found.unparsed))
  }

  /** A chunk step consumes at least its delimiter whenever it yields a value. */
  lemma DelimitedChunkShortens<T>(delimiter: string, parser: Parser<T>)
    requires NeverLengthens(parser)
    ensures ShortensOnSuccess((chunk: string) => DelimitedChunk(delimiter, parser, chunk))
  {
    forall chunk: string
      ensures var r := DelimitedChunk(delimiter, parser, chunk);
              r.Parsed? && r.parsed.Some? ==> |r.unparsed| < |chunk|
    {
      if StartsWith(chunk, delimiter) && delimiter != "" {
        var t := Trim(chunk[|delimiter|..]);
        assert DelimitedChunk(delimiter, parser, chunk) == parser(t);
      }
    }
  }

  /** The chunk step as a parser value (`parseDelimitedChunk`). */
  function ChunkParser<T>(delimiter: string, parser: Parser<T>): (p: Parser<T>)
    requires NeverLengthens(parser)
    ensures ShortensOnSuccess(p)
  {
    DelimitedChunkShortens(delimiter, parser);
    (chunk: string) => DelimitedChunk(delimiter, parser, chunk)
  }

  /**
   `delimitedParser(delimiter, parser)(value)`: fails, leaving the whole input,
   exactly when the first element is falsy; otherwise its value is the first
   element followed by every element found after an immediate delimiter, and
   its remainder is empty.
   */
  function DelimitedParser<T>(delimiter: string, parser: Parser<T>, truthy: T -> bool, value: string): (r: Parsed<seq<T>>)
    requires NeverLengthens(parser)
    ensures r.Throw? ==> parser(value).Throw? || Succeeded(parser(value), truthy)
    ensures parser(value).Throw? ==> r.Throw?
    ensures Succeeded(parser(value), truthy) ==>
              (r.Throw? <==> Elements(ChunkParser(delimiter, parser), parser(value).unparsed).None?)
    ensures parser(value).Parsed? && !Succeeded(parser(value), truthy) ==> r == ParseFailed(value)
    ensures Succeeded(parser(value), truthy) && r.Parsed? ==>
              r.parsed.Some? && r.unparsed == "" && |r.parsed.value| >= 1
              && r.parsed.value[0] == parser(value).parsed.value
  {
    var first := parser(value);
    if first.Throw? then
      Throw
    else if !(first.parsed.Some? && truthy(first.parsed.value)) then
      ParseFailed(value)
    else
      ParseRecursively(first.unparsed, ChunkParser(delimiter, parser), [first.parsed.value])
  }

  /** The elements after the first are those of the chunk step, in order. */
  lemma DelimitedParserElements<T>(delimiter: string, parser: Parser<T>, truthy: T -> bool, value: string)
    requires NeverLengthens(parser)
    requires Succeeded(parser(value), truthy)
    ensures var rest := Elements(ChunkParser(delimiter, parser), parser(value).unparsed);
            rest.Some? ==>
              DelimitedParser(delimiter, parser, truthy, value) == Parsed(Some([parser(value).parsed.value] + rest.value), "")
  {
    ParseRecursivelyIsElements(parser(value).unparsed, ChunkParser(delimiter, parser), [parser(value).parsed.value]);
  }
}

=== FILE: symbols.dfy ===
/** The token strings of src/symbols.ts, transcribed as constants. */
module Symbols {

  const JSON_TRUE: string := "true"
  const JSON_FALSE: string := "false"

  const JSON_NULL: string := "null"

  const JSON_STRING_START: string := "\""
  const JSON_STRING_END: string := "\""
  const JSON_STRING_ESCAPE: string := "\\"

  const JSON_LIST_START: string := "["
  const JSON_LIST_END: string := "]"
  const JSON_LIST_DELIMITER: string := ","

  const JSON_KV_DELIMITER: string := ":"

  const JSON_OBJECT_START: string := "{"
  const JSON_OBJECT_END: string := "}"
  const JSON_OBJECT_DELIMITER: string := ","
}

=== FILE: text.dfy ===
/**
 The JavaScript string operations the parsers rely on: `startsWith`,
 `slice` with non-negative bounds, and `trim`.
 */
module Text {

  /** `s.startsWith(prefix)` */
  predicate StartsWith(s: string, prefix: string)
  {
    |prefix| <= |s| && s[..|prefix|] == prefix
  }

  /** A text whose first letter differs from that of `prefix` does not start
      with it. */
  lemma FirstLetterMismatch(s: string, prefix: string)
    requires s != [] && prefix != [] && s[0] != prefix[0]
    ensures !StartsWith(s, prefix)
  {
    if |prefix| <= |s| {
      assert s[..|prefix|][0] == s[0];
    }
  }

  /** `s.slice(from, to)` for non-negative bounds: both are clamped to the
      length, and an empty string results when `to` is not after `from`. */
  function Slice(s: string, from: nat, to: nat): (r: string)
    ensures from <= to <= |s| ==> r == s[from..to]
    ensures to <= from ==> r == ""
    ensures |r| <= |s|
    ensures from <= |s| ==> |r| <= |s| - from
    ensures from <= |s| <= to ==> r == s[from..]
    ensures |s| <= from ==> r == ""
  {
    var a := if from < |s| then from else |s|;
    var b := if to < |s| then to else |s|;
    if b <= a then "" else s[a..b]
  }

  /** The characters `String.prototype.trim` removes: the ECMAScript
      WhiteSpace and LineTerminator code points. */
  predicate IsWhitespace(c: char)
  {
    || c == '\t' || c == '\n' || c == '\U{000B}' || c == '\U{000C}' || c == '\r'
    || c == ' ' || c == '\U{00A0}' || c == '\U{1680}'
    || ('\U{2000}' <= c <= '\U{200A}')
    || c == '\U{2028}' || c == '\U{2029}' || c == '\U{202F}' || c == '\U{205F}'
    || c == '\U{3000}' || c == '\U{FEFF}'
  }

  /** Length of the longest all-whitespace prefix of `s`. */
  function LeadingWhitespace(s: string): (n: nat)
    ensures n <= |s|
    ensures forall i :: 0 <= i < n ==> IsWhitespace(s[i])
    ensures n < |s| ==> !IsWhitespace(s[n])
  {
    if s == [] || !IsWhitespace(s[0]) then 0 else 1 + LeadingWhitespace(s[1..])
  }

  /** Length of the longest all-whitespace suffix of `s`. */
  function TrailingWhitespace(s: string): (n: nat)
    ensures n <= |s|
    ensures forall i :: |s| - n <= i < |s| ==> IsWhitespace(s[i])
    ensures n < |s| ==> !IsWhitespace(s[|s| - n - 1])
  {
    if s == [] || !IsWhitespace(s[|s| - 1]) then 0 else 1 + TrailingWhitespace(s[..|s| - 1])
  }

  /** `s.trim()`: the infix of `s` left after removing whitespace at both ends. */
  function Trim(s: string): (r: string)
    ensures LeadingWhitespace(s) + |r| <= |s|
    ensures r == [] || (!IsWhitespace(r[0]) && !IsWhitespace(r[|r| - 1]))
    ensures r == s[LeadingWhitespace(s)..LeadingWhitespace(s) + |r|]
    ensures forall i :: 0 <= i < LeadingWhitespace(s) ==> IsWhitespace(s[i])
    ensures forall i :: LeadingWhitespace(s) + |r| <= i < |s| ==> IsWhitespace(s[i])
  {
    var rest := s[LeadingWhitespace(s)..];
    rest[..|rest| - TrailingWhitespace(rest)]
  }

  /** Trimming is idempotent. */
  lemma TrimIdempotent(s: string)
    ensures Trim(Trim(s)) == Trim(s)
  {
    var t := Trim(s);
    assert LeadingWhitespace(t) == 0;
    assert TrailingWhitespace(t) == 0;
  }

  /** A string that neither starts nor ends with whitespace is its own trim. */
  lemma TrimUnchanged(s: string)
    requires s == [] || (!IsWhitespace(s[0]) && !IsWhitespace(s[|s| - 1]))
    ensures Trim(s) == s
  {
  }

  /** Trimming passes over a leading whitespace letter. */
  lemma TrimDropsLeading(s: string)
    requires s != [] && IsWhitespace(s[0])
    ensures Trim(s) == Trim(s[1..])
  {
    assert LeadingWhitespace(s) == 1 + LeadingWhitespace(s[1..]);
    assert s[LeadingWhitespace(s)..] == s[1..][LeadingWhitespace(s[1..])..];
  }

  /** Trimming keeps a first letter that is not whitespace. */
  lemma TrimKeepsFirst(s: string)
    requires s != [] && !IsWhitespace(s[0])
    ensures Trim(s) != [] && Trim(s)[0] == s[0]
  {
    assert LeadingWhitespace(s) == 0;
  }
}

=== FILE: wrappers.dfy ===
/** The optional value used wherever the source has `null`. */
module Wrappers {

  datatype Option<T> = None | Some(value: T)
}
